=== FILE: README.md ===
# Catch-the-beat star rating: stream and walk model

A Dafny model of the discrete core of `stars` in `fruits/src/lib.rs`. That is
the osu!catch ("fruits") star-rating routine of titanic-pp-rx. The model covers
these parts:

- the control-point lookup that finds the timing and difficulty point in force
  at a slider's start;
- path-type normalisation and curve construction;
- slider expansion: tick spacing, the speed-multiplier quirk, tick generation,
  the span layout with reverse points and reversed tick lists, and the fruit and
  droplet counts;
- the flattened catch-object stream (`scan` / `filter_map` / `flatten` over the
  `FruitOrJuice` iterator), with hard-rock state threaded through it;
- the hyperdash pass over adjacent pairs;
- the strain walk: each adjacent pair is handed to the movement skill once, and
  fixed-length sections are closed before that until the object falls inside
  one;
- the hit-count and accuracy helpers of `PpCalculator`.

`f32` is modelled as `real`. Code that is not part of this model is passed in
as function values: curve geometry (`point_at_distance`), `with_hr`,
`init_hyper_dash`, and the rating read off the movement skill. The movement
skill itself (`Movement`) is the log of calls made on it. Panics (indexing an
empty control-point list, `curve_points[1]` on a one-point linear path,
`unwrap` on a short stream) are `Err` values.

Files, one module each:

- `wrappers.dfy`: `Option` and `Result`.
- `geometry.dfy`: positions, path types, curves.
- `catch_object.dfy`: catch objects and the hard-rock and hyperdash rule types.
- `control_points.dfy`: binary search and control-point lookup.
- `real_math.dfy`: arithmetic facts.
- `slider.dfy`: slider expansion.
- `fruit_or_juice.dfy`: the per-object iterator.
- `stream.dfy`: the catch-object stream and its counts.
- `walk.dfy`: the hyperdash pass, section catch-up and the walk.
- `stars.dfy`: `stars` itself.
- `pp.dfy`: the hit-count helpers.

## Model

| member | source | states |
|---|---|---|
| ControlPoints.BinarySearch | fruits/src/lib.rs:22-26 | A hit lands on a point with exactly the target time. A miss returns the insertion point: points before it are earlier and points after it are later, when the points are sorted. |
| ControlPoints.Lookup | fruits/src/lib.rs:69-95 | An exact time match returns that point's (value, time). If every point is later than the target, the default is returned with time 0. Otherwise the result is the last point strictly before the target. With strictly increasing times, the matching point is unique. |
| ControlPoints.LookupTiming | fruits/src/lib.rs:69-81 | On sorted timing points, the result is (1000, 0) when every point is later. Otherwise it is the (beat length, time) of a point at or before the slider start, and every later point is at or after the start. That is the point in force. |
| ControlPoints.LookupDifficulty | fruits/src/lib.rs:83-95 | On sorted difficulty points, the result is (1.0, 0) when every point is later. Otherwise it is the (speed multiplier, time) of a point at or before the slider start, and every later point is at or after the start. |
| ControlPoints.ScanLookupIsLastAtOrBefore | fruits/src/lib.rs:69-95 | A linear reference scan returns the last point at or before the target, or the default. |
| ControlPoints.LookupAgreesWithScan | fruits/src/lib.rs:69-95 | On sorted points, the binary-search lookup equals the linear scan. This needs strictly increasing times, or no point at exactly the target time. |
| Geometry.NormalizePathType | fruits/src/lib.rs:111-117 | The result is Linear exactly when there are 2 points or the tag is Linear. It is Bezier exactly for a Bezier tag, or for a PerfectCurve tag with more than 3 points (2 points excepted). Catmull keeps its tag. PerfectCurve survives only with at most 3 points and not 2. |
| Geometry.NormalizeIdempotent | fruits/src/lib.rs:111-117 | Normalising twice is the same as normalising once. |
| Geometry.PerfectCurveWithManyPointsIsBezier | fruits/src/lib.rs:111-113 | PerfectCurve with more than 3 points is treated exactly like Bezier. |
| Geometry.BuildCurve | fruits/src/lib.rs:119-124 | Of the failures this file shows, building fails exactly for a linear path with fewer than 2 points. A linear curve keeps only the first two points. Every other kind keeps all the points. |
| Sliders.SpeedDivisor | fruits/src/lib.rs:100 | The divisor `clamp(100/sm, 10, 1000)/100` always lies in [0.1, 10]. It is 1/sm for sm in [0.1, 10]. It is 0.1 above 10 or for a negative sm. It is 10 for sm in [0, 0.1). |
| Sliders.TickDistance | fruits/src/lib.rs:97-101 | Before version 8 the tick distance is `100*sv/tick_rate`. From version 8 on, it is that value divided by the clamped divisor. So it is multiplied by sm for sm in [0.1, 10], multiplied by 10 for sm above 10 or negative, and divided by 10 for sm in [0, 0.1). It stays within [base/10, base*10] and is positive. |
| Sliders.DurationUsesMultiplierOnlyWhenCurrent | fruits/src/lib.rs:103-109 | When the timing point is newer than the difficulty point, the duration ignores the speed multiplier. Otherwise the duration is divided by it. |
| Sliders.TimeAddIsTicksPerBeat | fruits/src/lib.rs:109-127 | The tick time step equals `beat_len*td/(sv*spm*100)`. It does not depend on the slider's length or repeat count. |
| Sliders.DurationMultiplier | fruits/src/lib.rs:103-107 | No contract of its own. DurationUsesMultiplierOnlyWhenCurrent states its meaning: the multiplier is 1 when the timing point is newer, and the speed multiplier otherwise. |
| Sliders.Duration | fruits/src/lib.rs:109 | No contract of its own. DurationUsesMultiplierOnlyWhenCurrent and TimingBeforeAllPoints characterise it: the duration is `repeats·beat_len·pixel_len/(sv·spm)/100`. |
| Sliders.TimeAdd | fruits/src/lib.rs:127 | No contract of its own. TimeAddIsTicksPerBeat shows that the time step is `beat_len·td/(sv·spm·100)`, whatever the length and repeat count. |
| Sliders.TickCount | fruits/src/lib.rs:129-137 | The ticks sit at td, 2td, …, n·td, all strictly below the target, and (n+1)·td reaches the target. |
| Sliders.TickIndexWithinCount | fruits/src/lib.rs:132-137 | Every multiple of td below the target is among the ticks. |
| Sliders.GenerateTicks | fruits/src/lib.rs:126-137 | The while loop lays tick k at distance k·td and at time start + k·time_add. It stops at the first multiple that reaches the target. |
| Sliders.TickTimesIncrease | fruits/src/lib.rs:135 | With a positive time step, tick times strictly increase. |
| Sliders.Reverse | fruits/src/lib.rs:155-166 | Reversing keeps the length, and element i comes from position len-1-i. |
| Sliders.ReverseReverse | fruits/src/lib.rs:155-166 | Reversing the buffer twice restores it. |
| Sliders.RepeatSpansByParity | fruits/src/lib.rs:148-166 | Reversing the shared buffer in place once per span gives span j the forward ticks when j is even and the reversed ticks when j is odd. |
| Sliders.SliderLayoutBySpan | fruits/src/lib.rs:139-173 | The layout is the head, the forward ticks, the spans 1..repeats-1 (each a reverse point plus oriented ticks), then the tail. It has repeats·(ticks+1)+1 objects. |
| Sliders.SliderLayoutEnds | fruits/src/lib.rs:139-173 | The layout starts with the head, then the forward ticks unchanged, and ends with the tail at start + duration. |
| Sliders.SliderLayoutSpan | fruits/src/lib.rs:148-166 | At offset j·(n+1) is the reverse point of span j: at the path end for odd j and its start for even j, at time start + j·duration/repeats. Tick k of that span is forward tick n-1-k for odd j and tick k for even j, with its time unadjusted. |
| Sliders.ReversePoint | fruits/src/lib.rs:148-164 | No contract of its own. SliderLayoutSpan places it at offset j·(n+1): at the path end for odd j and its start for even j, at time start + j·duration/repeats. |
| Sliders.Tail | fruits/src/lib.rs:171-173 | No contract of its own. SliderLayoutEnds and LayoutHasShape make it the last object: at the path end for an odd repeat count and its start for an even one, at start + duration. |
| Sliders.RepeatSpans | fruits/src/lib.rs:148-167 | No contract of its own. RepeatSpansByParity proves that reversing the shared buffer once per span gives span j the ticks oriented by the parity of j. |
| Sliders.Layout | fruits/src/lib.rs:139-173 | No contract of its own. SliderLayoutBySpan, SliderLayoutEnds, SliderLayoutSpan and LayoutHasShape characterise it: head, forward ticks, one block per later span, then the tail, repeats·(n+1)+1 objects in all. |
| Sliders.LayoutHasShape | fruits/src/lib.rs:139-173 | The layout has the slider shape. Its length is repeats·(n+1)+1, the head comes first and the forward ticks next. Span j has its reverse point at offset j·(n+1), followed by the ticks reversed for odd j. The tail comes last. |
| Sliders.Timing | fruits/src/lib.rs:69-109 | The beat length and its time are the timing lookup at the slider's start. The speed multiplier and its time are the difficulty lookup there. The tick distance is TickDistance of that multiplier and is positive. The duration uses the multiplier only when the difficulty point is at least as new as the timing point. |
| Sliders.TimingBeforeAllPoints | fruits/src/lib.rs:69-109 | A slider that starts before every control point gets beat length 1000, speed multiplier 1, the unscaled tick distance `100*sv/tick_rate`, and duration `repeats*1000*pixel_len/sv/100`. |
| Sliders.ForwardTicks | fruits/src/lib.rs:126-137 | The number of forward ticks is the tick count below `pixel_len - td/8`. Tick k (from 1) lies at distance k·td along the curve and at time start + k·time_add. A zero-length path has no ticks. |
| Sliders.ExpandAlong | fruits/src/lib.rs:139-176 | A slider adds 1+repeats fruits and repeats·n droplets, where n is the number of forward ticks. The object count is their sum. The objects have the slider shape (see LayoutHasShape): the head, the forward ticks, then each later span's reverse point followed by its oriented ticks, and the tail at start + duration. |
| Sliders.ExpandSlider | fruits/src/lib.rs:111-176 | Expansion fails exactly for a linear path with fewer than 2 points. Otherwise it has the counts, ends and shape of ExpandAlong along the curve built from the normalised path type. |
| Sliders.ForwardTicksWithinFirstSpan | fruits/src/lib.rs:126-153 | All forward ticks fall before the first reverse point, at start + duration/repeats. |
| Sliders.OrientedIndex | fruits/src/lib.rs:155-166 | Tick k of span j is forward tick k on even spans and forward tick n-1-k on odd spans. |
| Sliders.LayoutRunsBackAfterFirstReverse | fruits/src/lib.rs:139-167 | With 2 or more spans, if all forward ticks precede the first reverse point, then the forward ticks sit before it in the list and in time. The first tick of the second span sits after it in the list but before it in time. |
| Sliders.RepeatTicksRunBackInTime | fruits/src/lib.rs:139-167 | With 2 or more spans and at least one tick, the object right after the first reverse point is earlier than that point. Reused tick times run back in time. |
| FruitOrJuiceIter.Next | fruits/src/lib.rs:279-284 | `next` yields the head of what is left and advances past it. It yields `None` exactly when nothing is left. A fruit stays a fruit. |
| FruitOrJuiceIter.SizeHint | fruits/src/lib.rs:287-293 | The size hint's upper bound equals its lower bound, and an empty fruit hints (0, Some(0)). |
| FruitOrJuiceIter.DrainIsRemaining | fruits/src/lib.rs:279-284 | Calling `next` until `None` yields exactly the remaining objects, in order. |
| FruitOrJuiceIter.SizeHintIsExact | fruits/src/lib.rs:287-293 | The size hint equals the number of objects the iterator yields. |
| FruitOrJuiceIter.FruitYieldsOnce | fruits/src/lib.rs:279-284 | A fruit yields its object once and then `None` forever. |
| FruitOrJuiceIter.JuiceDelegates | fruits/src/lib.rs:279-284 | A slider's juice yields its laid-out objects unchanged. |
| Stream.Fault | fruits/src/lib.rs:65-120 | Only a slider can fault. Of the panics this file shows, it faults exactly when it has no control points (line 66) or is a one-point linear path (line 120). |
| Stream.ExpandCircle | fruits/src/lib.rs:47-56 | A circle yields one fruit and no droplet. Without hard rock, the fruit is at the circle's position and time, and the hard-rock state is unchanged. With hard rock, the fruit and the new state are the hard-rock rule applied to that fruit and the incoming state. |
| Stream.SliderEndState | fruits/src/lib.rs:64-67 | No contract of its own. ExpandSliderObject and ExpandObject make it the hard-rock state after every slider that does not fault. That state is the head's x shifted by the curve's horizontal extent, at the slider's start time. |
| Stream.ExpandSliderObject | fruits/src/lib.rs:58-180 | A slider faults exactly when its control points are empty or it is a one-point linear path. Otherwise it yields 1+repeats fruits and its tick droplets, all held by its juice. It moves the hard-rock state to its curve's end. |
| Stream.ExpandObject | fruits/src/lib.rs:46-182 | A circle adds one fruit. A slider adds 1+repeats fruits and its tick droplets. A spinner or hold adds nothing and no item. The item holds exactly that many objects. A slider sets the hard-rock state from its curve's horizontal extent. A circle with hard rock takes its fruit and the new state from the hard-rock rule. Without hard rock, a circle's fruit sits at its position and time. The step fails exactly on a faulty slider. |
| Stream.FirstFaultIsEarliest | fruits/src/lib.rs:43-184 | The reported fault is that of the earliest faulty hit object. There is one exactly when some hit object is faulty. |
| Stream.ExpandFrom | fruits/src/lib.rs:43-184 | The stream fails with the first fault. Otherwise the fruit and droplet counters equal the per-object totals, and the stream length equals fruits + droplets. |
| Stream.ExpandMap | fruits/src/lib.rs:43-184 | The whole map's stream has length fruits + droplets, and those counters equal the reference totals. |
| Stream.CirclesStreamInOrder | fruits/src/lib.rs:47-56 | Without hard rock, circles stream one fruit each, at their position and time, in map order. |
| Stream.SpinnersStreamNothing | fruits/src/lib.rs:182-184 | Two spinners pass the guard on the number of hit objects, yet their stream is empty. |
| Walk.ClassifyFrom | fruits/src/lib.rs:196-214 | The hyperdash pass keeps every position and time and leaves the last object as it is. Object i is annotated by the rule applied to i and i+1, with the state threaded from the start. |
| Walk.SectionsToClose | fruits/src/lib.rs:223-227 | The number of catch-up iterations is the least n with time ≤ end + n·len. |
| Walk.PeakCallsShape | fruits/src/lib.rs:223-227 | Catch-up iteration i saves a peak and starts a section from end + i·len. |
| Walk.CatchUp | fruits/src/lib.rs:223-227 | The loop makes exactly those calls and ends at end + n·len, which is at or after the object time. |
| Walk.WalkStream | fruits/src/lib.rs:208-251 | The walk makes the reference calls for every adjacent pair and then a final `save_current_peak`. Its last section end covers the last object. |
| Walk.WalkProcessesEachPairOnce | fruits/src/lib.rs:208-248 | Every object after the first is processed exactly once, paired with its predecessor, in stream order. |
| Walk.WalkLog | fruits/src/lib.rs:208-251 | The complete walk log, ending with the final saved peak, processes each pair once in order and keeps to its sections. |
| Walk.WalkCoversEachObject | fruits/src/lib.rs:223-248 | In the call log, each new section starts at the current end. Each processed object lies at or before the current section end. |
| Stars.CatchWidth | fruits/src/lib.rs:263-267 | The catch width is never negative. It is zero exactly at circle size 85/7, and 106.75·0.8 at circle size 5. |
| Stars.CatchWidthShrinks | fruits/src/lib.rs:263-267 | Up to circle size 85/7, a higher circle size never widens the catcher. |
| Stars.HalfCatcherWidth | fruits/src/lib.rs:188 | The catch range cancels out: the half width is 106.75·\|scale\|/2. |
| Stars.InitialSectionEnd | fruits/src/lib.rs:194-196 | The first section end is at or after the first hit object's start, by less than one section. It is a whole number of sections. |
| Stars.Classified | fruits/src/lib.rs:188-214 | The hyperdash pass keeps the stream's length, positions and times, and leaves the last object as it is. Every other object i is annotated by the hyperdash rule applied to i, i+1 and half the catcher width, in the state threaded from (direction 0, excess one half catcher width). |
| Stars.Stars | fruits/src/lib.rs:30-260 | Fewer than two hit objects give all zeros. Otherwise the result is the first slider fault, or an `unwrap` failure when the stream has fewer than two objects. On success the fruits and droplets equal the reference totals, max combo is their sum and the stream's length, and the rating is read from the walk's movement log. |
| Stars.MovementLogWalksPairs | fruits/src/lib.rs:194-252 | The movement log processes each pair once in stream order, every object inside a started section, and ends with a saved peak. |
| Stars.MovementLog | fruits/src/lib.rs:192-251 | No contract of its own. MovementLogWalksPairs characterises it: it processes each classified pair once in stream order, inside started sections, and ends with a saved peak. Stars reads the rating off it. |
| Stars.TwoSpinnersPanic | fruits/src/lib.rs:31-199 | A map of two spinners passes the hit-object guard (lines 31-33). Its stream is empty, so it panics at the first `unwrap` (lines 198-199). |
| Pp.NewCalculator | fruits/src/lib.rs:334-347 | A new calculator has no counts set and no misses. |
| Pp.ComboHits | fruits/src/lib.rs:503-506 | Combo hits count at least the misses. They are just the misses when fruits and droplets are unset. |
| Pp.SuccessfulHits | fruits/src/lib.rs:508-513 | Successful hits are zero exactly when fruits, droplets and tiny droplets all read as zero. |
| Pp.TotalHits | fruits/src/lib.rs:515-518 | Total hits bound both successful and combo hits. They equal successful hits exactly when there are no tiny-droplet misses and no misses. |
| Pp.Acc | fruits/src/lib.rs:520-530 | Accuracy lies in [0, 1] and is 0 when nothing was judged. Otherwise it is exactly successful/total, since the clamp never acts. It is 1 exactly with no misses of either kind, and 0 exactly when nothing was caught. |
| Pp.MissNeverRaisesAcc | fruits/src/lib.rs:515-530 | One more miss never raises the accuracy. |
| Pp.FullComboIsFullAcc | fruits/src/lib.rs:520-530 | With no misses and something caught, accuracy is 1. |

## Left out

- Curve geometry (`Curve::linear/bezier/catmull/perfect`, `point_at_distance`): `curve.rs` is not part of this model, so it is a function value from (curve, distance) to position.
- Stream.Fault: assumes that `Curve::bezier`, `Curve::catmull` and `Curve::perfect` never panic, whatever the number of points. `curve.rs` is not part of this model, so a one-point Bezier, Catmull or PerfectCurve slider is expanded normally instead of failing.
- Geometry.BuildCurve: assumes the same, so it fails only for a linear path with fewer than 2 points.
- Hard-rock repositioning (`with_hr`) and hyperdash classification (`init_hyper_dash`): `catch_object.rs` is not part of this model. Both are rule functions, and only their threading through the stream is modelled.
- Strain numerics (`Movement::process`, `difficulty_value`, `DifficultyObject::new`, `sqrt * STAR_SCALING_FACTOR`): they live in files that are not part of this model. `Movement` is a call log, and the rating is a function of it. A difficulty object's time is taken to be its current object's time.
- `Movement::new`'s own half catcher width is fixed by the circle size it is given. The logged `DiffObject` therefore records only the pair and the clock rate.
- `PpCalculator::calculate`: floating-point `powf`/`powi`/`log10` scoring with no discrete structure.
- `PpCalculator::accuracy`: it depends on `stars` and float rounding. Its line `max_tiny_droplets - n_tiny_droplets`, with `max_tiny_droplets = 0`, underflows `usize` unless `n_tiny_droplets == 0`.
- The builder setters of `PpCalculator` (`combo`, `fruits`, …): each replaces one field and is not modelled separately.
- `ticks.reserve`, `Vec::with_capacity` and the reuse of one tick buffer across sliders: allocation only.
- Floating-point rounding: tick k lies at exactly k·td, where the source accumulates `current_distance += tick_distance` in `f32`. Integer casts to `f32` are exact here.
- NaN and infinity: the model requires a positive slider velocity and tick rate, non-zero speed multipliers, at least one span per slider and a positive clock rate. Outside these the source divides by zero or never ends its tick loop.
- Sliders.ExpandSlider: a slider with zero repeats is excluded by precondition. There the source's time step is NaN, and its tail is counted as a droplet.
- `usize` overflow of the fruit, droplet and hit counters is not modelled; counts are unbounded naturals.
- The source's split of the span loop into the first span, a loop over middle spans and a separately handled last span only avoids a clone. The model uses one loop over spans 1..repeats-1 with the same output.
- The source walks the stream with `prev`/`curr`/`next` and repeats the loop body once after the loop for the last object. The model uses one loop over the pairs, and the hyperdash pass runs first over the whole stream. The walk reads the annotations that pass writes. In the source, `curr.init_hyper_dash(&next)` runs before `DifficultyObject::new(&curr, …)`, so each object's annotation is final before the walk reads it. That is why the two orders make the same calls.
- The `parse` crate's `Beatmap`, `Mods` and `attributes().mods()`: the map's fields and the mod-adjusted circle size, clock rate and hard-rock flag are inputs.
- Tests: they read beatmap files from disk.

=== FILE: catch_object.dfy ===
/** Catch objects: the (position, time) points the catcher has to reach, and
    the state threaded through the two passes that annotate them. The
    annotation rules themselves (hard-rock repositioning, hyperdash
    classification) live in a file that is not part of this model and are
    supplied as function values. */
module CatchObjects {
  import opened Wrappers
  import opened Geometry

  /** The hyperdash annotation of a catch object. */
  datatype Dash = Unclassified | Classified(hyperDashTarget: Option<real>)

  datatype CatchObject = CatchObject(pos: Pos2, time: real, dash: Dash)

  /** `CatchObject::new((pos, time))`. */
  function NewCatchObject(pos: Pos2, time: real): CatchObject
  {
    CatchObject(pos, time, Unclassified)
  }

  /** `last_direction` and `last_excess`, threaded through the hyperdash pass. */
  datatype HyperDashState = HyperDashState(lastDirection: int, lastExcess: real)

  /** `init_hyper_dash(half_catcher_width, &next, &mut last_direction, &mut last_excess)`
      on the current object: the annotation it receives and the new state. */
  type HyperDashRule = (CatchObject, CatchObject, real, HyperDashState) -> (Dash, HyperDashState)

  /** `last_pos` and `last_time`, threaded through the stream for hard rock. */
  datatype HardRockState = HardRockState(lastPos: Option<real>, lastTime: real)

  /** `with_hr(last_pos, last_time)` on a circle. */
  type HardRockRule = (CatchObject, HardRockState) -> (CatchObject, HardRockState)
}

=== FILE: control_points.dfy ===
/** Timing and difficulty control points, and the binary-search lookup that
    finds the point in force at a slider's start time (lib.rs:69-95). */
module ControlPoints {

  /** A control point: its time and its value (beat length for a timing
      point, speed multiplier for a difficulty point). */
  datatype ControlPoint = ControlPoint(time: real, value: real)

  const DefaultBeatLength: real := 1000.0
  const DefaultSpeedMultiplier: real := 1.0

  ghost predicate SortedByTime(pts: seq<ControlPoint>)
  {
    forall i, j :: 0 <= i < j < |pts| ==> pts[i].time <= pts[j].time
  }

  ghost predicate StrictlySortedByTime(pts: seq<ControlPoint>)
  {
    forall i, j :: 0 <= i < j < |pts| ==> pts[i].time < pts[j].time
  }

  /** The outcome of a binary search: the index of an equal element, or the
      position where the target would be inserted. */
  datatype Search = Found(index: nat) | NotFound(insertAt: nat)

  /** Binary search of `pts[lo..hi]` for `t`, comparing by time. Which of
      several equal elements is found is left open, as the standard library
      leaves it open. */
  function BinarySearch(pts: seq<ControlPoint>, t: real, lo: nat, hi: nat): (r: Search)
    requires lo <= hi <= |pts|
    ensures r.Found? ==> lo <= r.index < hi && pts[r.index].time == t
    ensures r.NotFound? ==> lo <= r.insertAt <= hi
    ensures r.NotFound? && SortedByTime(pts) ==>
              (forall j :: lo <= j < r.insertAt ==> pts[j].time < t) &&
              (forall j :: r.insertAt <= j < hi ==> t < pts[j].time)
    decreases hi - lo
  {
    if lo == hi then NotFound(lo)
    else
      var mid := lo + (hi - lo) / 2;
      if pts[mid].time < t then BinarySearch(pts, t, mid + 1, hi)
      else if t < pts[mid].time then BinarySearch(pts, t, lo, mid)
      else Found(mid)
  }

  /** The (value, time) of the control point in force at `t`: the exact
      match, else the predecessor, else `(defaultValue, 0.0)`. */
  function Lookup(pts: seq<ControlPoint>, t: real, defaultValue: real): (r: (real, real))
    ensures SortedByTime(pts) && (exists j :: 0 <= j < |pts| && pts[j].time == t) ==>
              exists j :: 0 <= j < |pts| && pts[j].time == t && r == (pts[j].value, t)
    ensures StrictlySortedByTime(pts) ==>
              forall j :: 0 <= j < |pts| && pts[j].time == t ==> r == (pts[j].value, t)
    ensures SortedByTime(pts) && (forall j :: 0 <= j < |pts| ==> t < pts[j].time) ==>
              r == (defaultValue, 0.0)
    ensures SortedByTime(pts) && (forall j :: 0 <= j < |pts| ==> pts[j].time != t) &&
            (exists j :: 0 <= j < |pts| && pts[j].time < t) ==>
              exists i :: 0 <= i < |pts| && r == (pts[i].value, pts[i].time) && pts[i].time < t &&
                (forall j :: i < j < |pts| ==> t < pts[j].time)
    ensures SortedByTime(pts) && (exists j :: 0 <= j < |pts| && pts[j].time <= t) ==>
              exists i :: 0 <= i < |pts| && r == (pts[i].value, pts[i].time) && pts[i].time <= t &&
                (forall j :: i < j < |pts| ==> t <= pts[j].time)
  {
    match BinarySearch(pts, t, 0, |pts|)
    case Found(i) => (pts[i].value, pts[i].time)
    case NotFound(0) => (defaultValue, 0.0)
    case NotFound(i) => (pts[i - 1].value, pts[i - 1].time)
  }

  /** The timing point in force: `(beat_len, timing_time)`. */
  function LookupTiming(pts: seq<ControlPoint>, t: real): (r: (real, real))
    ensures SortedByTime(pts) && (forall j :: 0 <= j < |pts| ==> t < pts[j].time) ==>
              r == (1000.0, 0.0)
    ensures r.0 == DefaultBeatLength || exists j :: 0 <= j < |pts| && r.0 == pts[j].value
    ensures SortedByTime(pts) && (exists j :: 0 <= j < |pts| && pts[j].time <= t) ==>
              exists i :: 0 <= i < |pts| && r == (pts[i].value, pts[i].time) && pts[i].time <= t &&
                (forall j :: i < j < |pts| ==> t <= pts[j].time)
    ensures SortedByTime(pts) && (exists j :: 0 <= j < |pts| && pts[j].time == t) ==>
              exists j :: 0 <= j < |pts| && pts[j].time == t && r == (pts[j].value, t)
    ensures StrictlySortedByTime(pts) ==>
              forall j :: 0 <= j < |pts| && pts[j].time == t ==> r == (pts[j].value, t)
  {
    Lookup(pts, t, DefaultBeatLength)
  }

  /** The difficulty point in force: `(speed_multiplier, diff_time)`. */
  function LookupDifficulty(pts: seq<ControlPoint>, t: real): (r: (real, real))
    ensures SortedByTime(pts) && (forall j :: 0 <= j < |pts| ==> t < pts[j].time) ==>
              r == (1.0, 0.0)
    ensures r.0 == DefaultSpeedMultiplier || exists j :: 0 <= j < |pts| && r.0 == pts[j].value
    ensures SortedByTime(pts) && (exists j :: 0 <= j < |pts| && pts[j].time <= t) ==>
              exists i :: 0 <= i < |pts| && r == (pts[i].value, pts[i].time) && pts[i].time <= t &&
                (forall j :: i < j < |pts| ==> t <= pts[j].time)
    ensures SortedByTime(pts) && (exists j :: 0 <= j < |pts| && pts[j].time == t) ==>
              exists j :: 0 <= j < |pts| && pts[j].time == t && r == (pts[j].value, t)
    ensures StrictlySortedByTime(pts) ==>
              forall j :: 0 <= j < |pts| && pts[j].time == t ==> r == (pts[j].value, t)
  {
    Lookup(pts, t, DefaultSpeedMultiplier)
  }

  /** Reference definition: the last point at or before `t`, found by a scan
      from the end, or the default when there is none. */
  function ScanLookup(pts: seq<ControlPoint>, t: real, defaultValue: real): (real, real)
  {
    if |pts| == 0 then (defaultValue, 0.0)
    else if pts[|pts| - 1].time <= t then (pts[|pts| - 1].value, pts[|pts| - 1].time)
    else ScanLookup(pts[..|pts| - 1], t, defaultValue)
  }

  /** The scan picks the last point whose time is at most `t`. */
  lemma {:induction false} ScanLookupIsLastAtOrBefore(pts: seq<ControlPoint>, t: real, d: real, i: int)
    requires -1 <= i < |pts|
    requires i >= 0 ==> pts[i].time <= t
    requires forall j :: i < j < |pts| ==> t < pts[j].time
    ensures ScanLookup(pts, t, d) == if i < 0 then (d, 0.0) else (pts[i].value, pts[i].time)
    decreases |pts|
  {
    if |pts| == 0 {
    } else if i == |pts| - 1 {
    } else {
      assert t < pts[|pts| - 1].time;
      ScanLookupIsLastAtOrBefore(pts[..|pts| - 1], t, d, i);
    }
  }

  /** The binary-search lookup agrees with the scan whenever the points are
      sorted and no two of them tie at `t`. */
  lemma LookupAgreesWithScan(pts: seq<ControlPoint>, t: real, d: real)
    requires SortedByTime(pts)
    requires StrictlySortedByTime(pts) || forall j :: 0 <= j < |pts| ==> pts[j].time != t
    ensures Lookup(pts, t, d) == ScanLookup(pts, t, d)
  {
    var r := BinarySearch(pts, t, 0, |pts|);
    if r.Found? {
      var i := r.index;
      assert pts[i].time == t;
      assert StrictlySortedByTime(pts);
      assert Lookup(pts, t, d) == (pts[i].value, t);
      FoundIsLastAtOrBefore(pts, t, d, i);
    } else {
      var k := r.insertAt;
      assert Lookup(pts, t, d) == if k == 0 then (d, 0.0) else (pts[k - 1].value, pts[k - 1].time);
      InsertionPointIsLastAtOrBefore(pts, t, d, k);
    }
  }

  /** Below an insertion point, the scan picks the point just before it. */
  lemma InsertionPointIsLastAtOrBefore(pts: seq<ControlPoint>, t: real, d: real, k: nat)
    requires k <= |pts|
    requires forall j :: 0 <= j < k ==> pts[j].time < t
    requires forall j :: k <= j < |pts| ==> t < pts[j].time
    ensures ScanLookup(pts, t, d) == if k == 0 then (d, 0.0) else (pts[k - 1].value, pts[k - 1].time)
  {
    if k > 0 {
      assert pts[k - 1].time < t;
    }
    ScanLookupIsLastAtOrBefore(pts, t, d, k - 1);
  }

  /** On strictly sorted points, an exact match is also the scan's pick. */
  lemma FoundIsLastAtOrBefore(pts: seq<ControlPoint>, t: real, d: real, i: nat)
    requires StrictlySortedByTime(pts)
    requires i < |pts| && pts[i].time == t
    ensures ScanLookup(pts, t, d) == (pts[i].value, t)
  {
    forall j | i < j < |pts|
      ensures t < pts[j].time
    {
    }
    ScanLookupIsLastAtOrBefore(pts, t, d, i);
  }
}

=== FILE: fruit_or_juice.dfy ===
/** The per-hit-object iterator of the catch-object stream: a circle yields
    its single fruit once, a slider delegates to the iterator over its laid
    out objects. Iterator state is the remaining input, so `next` returns
    the item together with the advanced iterator. */
module FruitOrJuiceIter {
  import opened Wrappers
  import opened CatchObjects

  datatype FruitOrJuice = Fruit(fruit: Option<CatchObject>) | Juice(rest: seq<CatchObject>)

  /** The objects the iterator still holds, in the order it yields them. */
  function Remaining(f: FruitOrJuice): seq<CatchObject>
  {
    match f
    case Fruit(None) => []
    case Fruit(Some(o)) => [o]
    case Juice(rest) => rest
  }

  /** `next`: a fruit is taken (leaving `Fruit(None)`), a slider's iterator
      advances by one. */
  function Next(f: FruitOrJuice): (r: (Option<CatchObject>, FruitOrJuice))
    ensures r.0.None? <==> Remaining(f) == []
    ensures r.0.Some? ==> r.0.value == Remaining(f)[0] && Remaining(r.1) == Remaining(f)[1..]
    ensures r.0.None? ==> Remaining(r.1) == []
    ensures r.1.Fruit? <==> f.Fruit?
  {
    match f
    case Fruit(fruit) => (fruit, Fruit(None))
    case Juice(rest) => if rest == [] then (None, f) else (Some(rest[0]), Juice(rest[1..]))
  }

  /** `size_hint`: exact bounds for a fruit; a vector's mapped iterator
      reports its exact remaining length. */
  function SizeHint(f: FruitOrJuice): (h: (nat, Option<nat>))
    ensures h.1 == Some(h.0)
    ensures f == Fruit(None) ==> h == (0, Some(0))
  {
    match f
    case Fruit(Some(_)) => (1, Some(1))
    case Fruit(None) => (0, Some(0))
    case Juice(rest) => (|rest|, Some(|rest|))
  }

  /** Everything the iterator yields when `next` is called until it
      returns `None`. */
  function Drain(f: FruitOrJuice): seq<CatchObject>
    decreases |Remaining(f)|
  {
    var (x, f') := Next(f);
    match x
    case None => []
    case Some(o) => [o] + Drain(f')
  }

  /** Draining yields exactly the remaining objects, in order. */
  lemma {:induction false} DrainIsRemaining(f: FruitOrJuice)
    ensures Drain(f) == Remaining(f)
    decreases |Remaining(f)|
  {
    var (x, f') := Next(f);
    if x.Some? {
      DrainIsRemaining(f');
    }
  }

  /** The size hint is exact: both bounds equal the number of items left. */
  lemma SizeHintIsExact(f: FruitOrJuice)
    ensures SizeHint(f) == (|Drain(f)|, Some(|Drain(f)|))
  {
    DrainIsRemaining(f);
  }

  /** A fruit yields its object exactly once, and the iterator is fused:
      after `None` it keeps returning `None`. */
  lemma FruitYieldsOnce(o: CatchObject)
    ensures Next(Fruit(Some(o))) == (Some(o), Fruit(None))
    ensures Next(Fruit(None)) == (None, Fruit(None))
    ensures Drain(Fruit(Some(o))) == [o]
  {
  }

  /** A slider's juice yields its laid-out objects unchanged, in order. */
  lemma JuiceDelegates(objects: seq<CatchObject>)
    ensures Drain(Juice(objects)) == objects
  {
    DrainIsRemaining(Juice(objects));
  }
}

=== FILE: geometry.dfy ===
/** Slider paths: the path-type compatibility rules and curve construction.
    The curve geometry itself (`point_at_distance`) lives in a file that is
    not part of this model; it is supplied as a function value. */
module Geometry {
  import opened Wrappers

  datatype Pos2 = Pos2(x: real, y: real)

  datatype PathType = Linear | Bezier | Catmull | PerfectCurve

  /** A constructed curve: its kind and the control points it was built from.
      A linear curve keeps only the first two control points. */
  datatype Curve = Curve(kind: PathType, points: seq<Pos2>)

  /** `curve.point_at_distance(d)`: the position reached after travelling `d`
      along the curve. Uninterpreted here. */
  type PointAt = (Curve, real) -> Pos2

  /** The path type a slider is actually built with, given its tag and its
      number of control points. */
  function NormalizePathType(tag: PathType, n: nat): (r: PathType)
    ensures r == Linear <==> n == 2 || tag == Linear
    ensures r == Bezier <==> n != 2 && (tag == Bezier || (tag == PerfectCurve && n > 3))
    ensures r == Catmull <==> n != 2 && tag == Catmull
    ensures r == PerfectCurve <==> n != 2 && n <= 3 && tag == PerfectCurve
  {
    if tag == PerfectCurve && n > 3 then Bezier
    else if n == 2 then Linear
    else tag
  }

  /** Normalising twice changes nothing: the rules reach a fixed point at once. */
  lemma NormalizeIdempotent(tag: PathType, n: nat)
    ensures NormalizePathType(NormalizePathType(tag, n), n) == NormalizePathType(tag, n)
  {
  }

  /** A perfect-circle slider with four or more control points is built
      exactly as the same slider tagged Bezier. */
  lemma PerfectCurveWithManyPointsIsBezier(n: nat)
    requires n > 3
    ensures NormalizePathType(PerfectCurve, n) == NormalizePathType(Bezier, n) == Bezier
  {
  }

  /** Building the curve for a (normalised) path type. A linear curve reads
      the first two control points, so fewer than two is an out-of-bounds
      index (`None`). The other kinds hand the whole list to the curve code. */
  function BuildCurve(kind: PathType, cps: seq<Pos2>): (r: Option<Curve>)
    ensures r.None? <==> kind == Linear && |cps| < 2
    ensures r.Some? ==> r.value.kind == kind
    ensures r.Some? && kind == Linear ==> r.value.points == [cps[0], cps[1]]
    ensures r.Some? && kind != Linear ==> r.value.points == cps
  {
    match kind
    case Linear => if |cps| < 2 then None else Some(Curve(Linear, cps[..2]))
    case _ => Some(Curve(kind, cps))
  }
}

=== FILE: pp.dfy ===
/** The hit-count helpers of the performance calculator: the counts a
    player sets (each optional, read as 0 when unset) and the accuracy
    derived from them. */
module Pp {
  import opened Wrappers
  import opened RealMath

  datatype PpCalculator = PpCalculator(combo: Option<nat>, nFruits: Option<nat>, nDroplets: Option<nat>,
                                       nTinyDroplets: Option<nat>, nTinyDropletMisses: Option<nat>,
                                       nMisses: nat)

  /** `PpCalculator::new`: nothing set, no misses. */
  function NewCalculator(): (p: PpCalculator)
    ensures p.nFruits.None? && p.nDroplets.None? && p.nTinyDroplets.None? && p.nTinyDropletMisses.None?
    ensures p.combo.None? && p.nMisses == 0
  {
    PpCalculator(None, None, None, None, None, 0)
  }

  /** `unwrap_or(0)`. */
  function OrZero(o: Option<nat>): nat
  {
    match o
    case None => 0
    case Some(n) => n
  }

  /** Fruits, droplets and misses: the objects that count towards combo. */
  function ComboHits(p: PpCalculator): (n: nat)
    ensures n >= p.nMisses
    ensures p.nFruits.None? && p.nDroplets.None? ==> n == p.nMisses
  {
    OrZero(p.nFruits) + OrZero(p.nDroplets) + p.nMisses
  }

  /** Fruits, droplets and tiny droplets caught. */
  function SuccessfulHits(p: PpCalculator): (n: nat)
    ensures n == 0 <==> OrZero(p.nFruits) == 0 && OrZero(p.nDroplets) == 0 && OrZero(p.nTinyDroplets) == 0
  {
    OrZero(p.nFruits) + OrZero(p.nDroplets) + OrZero(p.nTinyDroplets)
  }

  /** Every judged object: the caught ones, missed tiny droplets and misses. */
  function TotalHits(p: PpCalculator): (n: nat)
    ensures n >= SuccessfulHits(p) && n >= ComboHits(p)
    ensures n == SuccessfulHits(p) <==> OrZero(p.nTinyDropletMisses) == 0 && p.nMisses == 0
  {
    SuccessfulHits(p) + OrZero(p.nTinyDropletMisses) + p.nMisses
  }

  /** The accuracy in [0, 1]: 0 with nothing judged, otherwise the caught
      share. The clamp to [0, 1] never changes the share. */
  function Acc(p: PpCalculator): (a: real)
    ensures 0.0 <= a <= 1.0
    ensures TotalHits(p) == 0 ==> a == 0.0
    ensures TotalHits(p) > 0 ==> a == SuccessfulHits(p) as real / TotalHits(p) as real
    ensures a == 1.0 <==> TotalHits(p) > 0 && OrZero(p.nTinyDropletMisses) == 0 && p.nMisses == 0
    ensures a == 0.0 <==> SuccessfulHits(p) == 0
  {
    var total := TotalHits(p);
    if total == 0 then 0.0
    else
      var share := SuccessfulHits(p) as real / total as real;
      FractionWithinUnit(SuccessfulHits(p) as real, total as real);
      Clamp(share, 0.0, 1.0)
  }

  /** One more miss never raises the accuracy. */
  lemma MissNeverRaisesAcc(p: PpCalculator)
    ensures Acc(p.(nMisses := p.nMisses + 1)) <= Acc(p)
  {
    var q := p.(nMisses := p.nMisses + 1);
    var s := SuccessfulHits(p) as real;
    var t := TotalHits(p) as real;
    assert SuccessfulHits(q) as real == s && TotalHits(q) as real == t + 1.0;
    if TotalHits(p) > 0 && SuccessfulHits(p) > 0 {
      DivBetween(s, t + 1.0, t, t + 1.0);
    }
  }

  /** A play with no misses of any kind has full accuracy as soon as one
      object was caught. */
  lemma FullComboIsFullAcc(p: PpCalculator)
    requires p.nMisses == 0 && OrZero(p.nTinyDropletMisses) == 0 && SuccessfulHits(p) > 0
    ensures Acc(p) == 1.0
  {
  }
}

=== FILE: real_math.dfy ===
/** Small facts about reals and integers that the model's arithmetic needs. */
module RealMath {

  /** The least integer not below `x` (f32 `ceil`, without rounding). */
  function Ceil(x: real): (c: int)
    ensures (c - 1) as real < x <= c as real
  {
    -((-x).Floor)
  }

  /** `x.max(lo).min(hi)`, as Rust's `f32::max` and `f32::min` chain it. */
  function Clamp(x: real, lo: real, hi: real): (c: real)
    ensures lo <= hi ==> lo <= c <= hi
    ensures lo <= x <= hi ==> c == x
    ensures x <= lo <= hi ==> c == lo
    ensures lo <= hi <= x ==> c == hi
  {
    var m := if x > lo then x else lo;
    if m < hi then m else hi
  }

  /** The distance covered by k steps of length `step`. */
  function Multiple(k: int, step: real): real
  {
    k as real * step
  }

  /** One more step covers one more step length. */
  lemma MultipleSucc(k: int, step: real)
    ensures Multiple(k + 1, step) == Multiple(k, step) + step
  {
    assert (k + 1) as real * step == k as real * step + 1.0 * step;
  }

  /** Multiplying by a positive factor keeps a non-strict order. */
  lemma MulLeft(a: real, b: real, c: real)
    requires c > 0.0 && a <= b
    ensures a * c <= b * c
  {
  }

  /** Multiplying by a positive factor keeps a strict order. */
  lemma MulLeftStrict(a: real, b: real, c: real)
    requires c > 0.0 && a < b
    ensures a * c < b * c
  {
  }

  /** Integer steps of a positive length: fewer steps never reach farther. */
  lemma StepsMonotone(j: int, k: int, len: real)
    requires len > 0.0 && j <= k
    ensures Multiple(j, len) <= Multiple(k, len)
  {
    MulLeft(j as real, k as real, len);
  }

  /** Dividing a positive amount by a divisor in [lo, hi] lands in [x/hi, x/lo]. */
  lemma DivBetween(x: real, d: real, lo: real, hi: real)
    requires x > 0.0 && 0.0 < lo <= d <= hi
    ensures x / hi <= x / d <= x / lo
  {
    assert x / d * d == x;
    assert x / hi * hi == x;
    assert x / lo * lo == x;
    if x / d < x / hi {
      MulLeftStrict(x / d, x / hi, d);
      MulLeft(d, hi, x / hi);
    }
    if x / lo < x / d {
      MulLeftStrict(x / lo, x / d, lo);
      MulLeft(lo, d, x / d);
    }
  }

  /** A fraction of the whole below one r-th: if n steps of `td` stay below
      `pl`, then n steps of dur*td/(pl*r) stay below dur/r. */
  lemma StepsWithinShare(dur: real, td: real, pl: real, r: real, n: nat)
    requires dur > 0.0 && pl > 0.0 && r > 0.0
    requires Multiple(n, td) < pl
    ensures dur * (td / (pl * r)) * n as real < dur / r
  {
    var q := td / (pl * r);
    assert q * n as real == Multiple(n, td) / (pl * r);
    MulLeftStrict(Multiple(n, td), pl, 1.0 / (pl * r));
    assert pl * (1.0 / (pl * r)) == 1.0 / r;
    assert q * n as real < 1.0 / r;
    MulLeftStrict(q * n as real, 1.0 / r, dur);
  }

  /** Every one of the first n steps of dur*td/(pl*r) stays below dur/r
      when n steps of `td` stay below `pl`. */
  lemma EachStepWithinShare(dur: real, td: real, pl: real, r: real, n: nat, k: nat)
    requires dur > 0.0 && pl > 0.0 && r > 0.0 && td > 0.0
    requires Multiple(n, td) < pl && k <= n
    ensures dur * (td / (pl * r)) * k as real < dur / r
  {
    var q := dur * (td / (pl * r));
    assert q > 0.0;
    StepsWithinShare(dur, td, pl, r, n);
    MulLeft(k as real, n as real, q);
  }

  /** A part of a positive whole is a fraction in [0, 1], which is 1 for
      the whole and 0 for nothing. */
  lemma FractionWithinUnit(part: real, whole: real)
    requires 0.0 <= part <= whole && whole > 0.0
    ensures 0.0 <= part / whole <= 1.0
    ensures part / whole == 1.0 <==> part == whole
    ensures part / whole == 0.0 <==> part == 0.0
  {
    assert part / whole * whole == part;
  }
}

=== FILE: slider.dfy ===
/** Slider expansion (lib.rs:97-176): the tick spacing and span duration
    derived from the control points in force, the ticks laid at fixed
    spacing, and the span layout of head, ticks, reverse points and tail. */
module Sliders {
  import opened Wrappers
  import opened RealMath
  import opened Geometry
  import opened CatchObjects
  import opened ControlPoints

  /** From this beatmap format version on, the speed multiplier scales the
      tick spacing. */
  const SpeedScaledTicksVersion: int := 8

  /** `(100 / speed_multiplier).max(10).min(1000) / 100`. A zero multiplier
      divides to +infinity in f32, which the clamp takes to 1000. */
  function SpeedDivisor(sm: real): (d: real)
    ensures 0.1 <= d <= 10.0
    ensures 0.1 <= sm <= 10.0 ==> d * sm == 1.0
    ensures 10.0 < sm || sm < 0.0 ==> d == 0.1
    ensures 0.0 <= sm < 0.1 ==> d == 10.0
  {
    var raw := if sm == 0.0 then 1000.0 else 100.0 / sm;
    Clamp(raw, 10.0, 1000.0) / 100.0
  }

  /** The spacing between slider ticks along the path. */
  function TickDistance(sv: real, tickRate: real, version: int, sm: real): (td: real)
    requires tickRate != 0.0
    ensures version < SpeedScaledTicksVersion ==> td == 100.0 * sv / tickRate
    ensures version >= SpeedScaledTicksVersion && 0.1 <= sm <= 10.0 ==> td == 100.0 * sv / tickRate * sm
    ensures version >= SpeedScaledTicksVersion && (10.0 < sm || sm < 0.0) ==> td == 100.0 * sv / tickRate * 10.0
    ensures version >= SpeedScaledTicksVersion && 0.0 <= sm < 0.1 ==> td == 100.0 * sv / tickRate / 10.0
    ensures version >= SpeedScaledTicksVersion && 100.0 * sv / tickRate > 0.0 ==>
              (100.0 * sv / tickRate) / 10.0 <= td <= (100.0 * sv / tickRate) / 0.1
    ensures 100.0 * sv / tickRate > 0.0 ==> td > 0.0
  {
    var base := 100.0 * sv / tickRate;
    if version >= SpeedScaledTicksVersion then
      var d := SpeedDivisor(sm);
      assert 0.1 <= sm <= 10.0 ==> base / d == base * sm by {
        if 0.1 <= sm <= 10.0 {
          assert d * sm == 1.0;
          assert base / d == base * (d * sm) / d;
        }
      }
      assert base > 0.0 ==> base / 10.0 <= base / d <= base / 0.1 by {
        if base > 0.0 { DivBetween(base, d, 0.1, 10.0); }
      }
      base / d
    else
      base
  }

  /** The speed multiplier used for the span duration: 1.0 when the timing
      point in force is newer than the difficulty point in force. */
  function DurationMultiplier(timingTime: real, diffTime: real, sm: real): (spm: real)
  {
    if timingTime > diffTime then 1.0 else sm
  }

  /** The time the whole slider takes, all spans together. */
  function Duration(repeats: nat, beatLen: real, pixelLen: real, sv: real, spm: real): (dur: real)
    requires sv * spm != 0.0
  {
    repeats as real * beatLen * pixelLen / (sv * spm) / 100.0
  }

  /** A stale speed multiplier (its difficulty point older than the timing
      point in force) has no effect on the duration; a current one divides it. */
  lemma DurationUsesMultiplierOnlyWhenCurrent(repeats: nat, beatLen: real, pixelLen: real,
                                              sv: real, timingTime: real, diffTime: real, sm: real)
    requires sv != 0.0 && sm != 0.0
    ensures timingTime > diffTime ==>
              Duration(repeats, beatLen, pixelLen, sv, DurationMultiplier(timingTime, diffTime, sm))
              == Duration(repeats, beatLen, pixelLen, sv, 1.0)
    ensures timingTime <= diffTime ==>
              Duration(repeats, beatLen, pixelLen, sv, DurationMultiplier(timingTime, diffTime, sm)) * sm
              == Duration(repeats, beatLen, pixelLen, sv, 1.0)
  {
    var spm := DurationMultiplier(timingTime, diffTime, sm);
    assert spm != 0.0;
    var x := repeats as real * beatLen * pixelLen;
    if timingTime <= diffTime {
      assert x / (sv * sm) / 100.0 * sm == x / sv / 100.0;
    }
  }

  /** The time between consecutive ticks. */
  function TimeAdd(duration: real, td: real, pixelLen: real, repeats: nat): real
    requires pixelLen * repeats as real != 0.0
  {
    duration * (td / (pixelLen * repeats as real))
  }

  /** The tick time step depends only on the beat length, the tick spacing
      and the velocity, not on the slider's length or repeat count. */
  lemma TimeAddIsTicksPerBeat(repeats: nat, beatLen: real, pixelLen: real, sv: real, spm: real, td: real)
    requires sv * spm != 0.0 && pixelLen != 0.0 && repeats > 0
    ensures TimeAdd(Duration(repeats, beatLen, pixelLen, sv, spm), td, pixelLen, repeats)
            == beatLen * td / (sv * spm * 100.0)
  {
    var r := repeats as real;
    var s := sv * spm;
    assert r * pixelLen != 0.0;
    calc {
      TimeAdd(Duration(repeats, beatLen, pixelLen, sv, spm), td, pixelLen, repeats);
      r * beatLen * pixelLen / s / 100.0 * (td / (pixelLen * r));
      { assert r * beatLen * pixelLen / s / 100.0 == (beatLen / (s * 100.0)) * (r * pixelLen); }
      (beatLen / (s * 100.0)) * (r * pixelLen) * (td / (pixelLen * r));
      (beatLen / (s * 100.0)) * td;
    }
  }

  /** The number of ticks: how many positive multiples of `td` lie strictly
      below `target`. */
  function TickCount(td: real, target: real): (n: nat)
    requires td > 0.0
    ensures forall k :: 1 <= k <= n ==> Multiple(k, td) < target
    ensures target <= Multiple(n + 1, td)
  {
    if target <= 0.0 then 0
    else
      var c := Ceil(target / td);
      assert (c - 1) as real * td < target by {
        MulLeftStrict((c - 1) as real, target / td, td);
      }
      assert target <= c as real * td by {
        MulLeft(target / td, c as real, td);
      }
      forall k | 1 <= k <= c - 1
        ensures Multiple(k, td) < target
      {
        StepsMonotone(k, c - 1, td);
      }
      c - 1
  }

  /** A tick index whose distance lies below the target is within the count. */
  lemma TickIndexWithinCount(td: real, target: real, k: nat)
    requires td > 0.0 && Multiple(k, td) < target
    ensures k <= TickCount(td, target)
  {
    var n := TickCount(td, target);
    if k > n {
      StepsMonotone(n + 1, k, td);
    }
  }

  /** The k-th tick (k from 1): at distance k*td along the curve, at time
      start + k*timeAdd. */
  function Tick(pointAt: PointAt, curve: Curve, start: real, td: real, timeAdd: real, k: nat): CatchObject
  {
    NewCatchObject(pointAt(curve, Multiple(k, td)), start + timeAdd * k as real)
  }

  /** All ticks of the forward span, in order. */
  function Ticks(pointAt: PointAt, curve: Curve, start: real, td: real, target: real, timeAdd: real): seq<CatchObject>
    requires td > 0.0
  {
    seq(TickCount(td, target), i requires 0 <= i => Tick(pointAt, curve, start, td, timeAdd, i + 1))
  }

  /** The tick loop of the source: walk the distance forward by `td` while
      it stays below the target, emitting one tick per step. */
  method GenerateTicks(pointAt: PointAt, curve: Curve, start: real, td: real, target: real, timeAdd: real)
    returns (ticks: seq<CatchObject>)
    requires td > 0.0
    ensures forall i :: 0 <= i < |ticks| ==>
              Multiple(i + 1, td) < target &&
              ticks[i].pos == pointAt(curve, Multiple(i + 1, td)) &&
              ticks[i].time == start + timeAdd * (i + 1) as real
    ensures target <= Multiple(|ticks| + 1, td)
    ensures ticks == Ticks(pointAt, curve, start, td, target, timeAdd)
  {
    ticks := [];
    var currentDistance := td;
    while currentDistance < target
      invariant currentDistance == Multiple(|ticks| + 1, td)
      invariant |ticks| <= TickCount(td, target)
      invariant forall i :: 0 <= i < |ticks| ==>
                  ticks[i] == Tick(pointAt, curve, start, td, timeAdd, i + 1) &&
                  Multiple(i + 1, td) < target
      decreases TickCount(td, target) - |ticks|
    {
      TickIndexWithinCount(td, target, |ticks| + 1);
      var tick := NewCatchObject(pointAt(curve, currentDistance), start + timeAdd * (|ticks| + 1) as real);
      assert tick == Tick(pointAt, curve, start, td, timeAdd, |ticks| + 1);
      ticks := ticks + [tick];
      currentDistance := currentDistance + td;
    }
  }

  /** With a positive time step the forward ticks are strictly increasing in
      time. */
  lemma TickTimesIncrease(pointAt: PointAt, curve: Curve, start: real, td: real, target: real, timeAdd: real)
    requires td > 0.0 && timeAdd > 0.0
    ensures var ts := Ticks(pointAt, curve, start, td, target, timeAdd);
            forall i, j :: 0 <= i < j < |ts| ==> ts[i].time < ts[j].time
  {
    var ts := Ticks(pointAt, curve, start, td, target, timeAdd);
    forall i, j | 0 <= i < j < |ts|
      ensures ts[i].time < ts[j].time
    {
      TickTimeBefore(start, timeAdd, i, j, ts[i].time, ts[j].time);
    }
  }

  /** Tick i+1 comes before tick j+1 when i < j. */
  lemma TickTimeBefore(start: real, timeAdd: real, i: nat, j: nat, ti: real, tj: real)
    requires timeAdd > 0.0 && i < j
    requires ti == start + timeAdd * (i + 1) as real
    requires tj == start + timeAdd * (j + 1) as real
    ensures ti < tj
  {
    MulLeftStrict((i + 1) as real, (j + 1) as real, timeAdd);
  }

  function Reverse<T>(s: seq<T>): (r: seq<T>)
    ensures |r| == |s|
    ensures forall i :: 0 <= i < |s| ==> r[i] == s[|s| - 1 - i]
  {
    seq(|s|, i requires 0 <= i < |s| => s[|s| - 1 - i])
  }

  /** What the layout of one slider depends on, once timing is known. */
  datatype SliderPath = SliderPath(start: real, pixelLen: real, repeats: nat, duration: real, curve: Curve)

  /** The point at the start of span j (j >= 1): at the path's end for odd
      j and its start for even j, at start + j*duration/repeats. */
  function ReversePoint(pointAt: PointAt, p: SliderPath, j: nat): CatchObject
    requires p.repeats > 0
  {
    NewCatchObject(pointAt(p.curve, (j % 2) as real * p.pixelLen),
                   p.start + (p.duration / p.repeats as real) * j as real)
  }

  /** The slider tail, at start + duration. */
  function Tail(pointAt: PointAt, p: SliderPath): CatchObject
  {
    NewCatchObject(pointAt(p.curve, (p.repeats % 2) as real * p.pixelLen), p.start + p.duration)
  }

  /** The repeat loop of the source: for repeat ids j, j+1, ..., repeats-1,
      a reverse point followed by the tick buffer reversed in place once more.
      The tick times are reused as they are. */
  function RepeatSpans(pointAt: PointAt, p: SliderPath, buffer: seq<CatchObject>, j: nat): seq<CatchObject>
    requires p.repeats > 0
    decreases p.repeats - j
  {
    if j >= p.repeats then []
    else [ReversePoint(pointAt, p, j)] + Reverse(buffer) + RepeatSpans(pointAt, p, Reverse(buffer), j + 1)
  }

  /** The catch objects of one slider: head, forward ticks, the repeat spans,
      tail. */
  function Layout(pointAt: PointAt, p: SliderPath, head: CatchObject, ticks: seq<CatchObject>): seq<CatchObject>
    requires p.repeats > 0
  {
    [head] + ticks + RepeatSpans(pointAt, p, ticks, 1) + [Tail(pointAt, p)]
  }

  /** The forward ticks as span j sees them: reversed on odd spans. */
  function Oriented<T>(ticks: seq<T>, j: nat): seq<T>
  {
    if j % 2 == 1 then Reverse(ticks) else ticks
  }

  /** Blocks j, j+1, ..., last-1, block i being `marker(i)` followed by
      `body(i)`. */
  function Blocks<T>(marker: nat -> T, body: nat -> seq<T>, j: nat, last: nat): seq<T>
    decreases last - j
  {
    if j >= last then [] else [marker(j)] + body(j) + Blocks(marker, body, j + 1, last)
  }

  /** Reference layout of spans j.. by parity: span j is its reverse point
      followed by the forward ticks, reversed when j is odd. */
  function SpansFrom(pointAt: PointAt, p: SliderPath, ticks: seq<CatchObject>, j: nat): seq<CatchObject>
    requires p.repeats > 0
  {
    Blocks(SpanMarker(pointAt, p), SpanBody(ticks), j, p.repeats)
  }

  function SpanMarker(pointAt: PointAt, p: SliderPath): nat -> CatchObject
    requires p.repeats > 0
  {
    (i: nat) => ReversePoint(pointAt, p, i)
  }

  function SpanBody(ticks: seq<CatchObject>): nat -> seq<CatchObject>
  {
    (i: nat) => Oriented(ticks, i)
  }

  lemma ReverseReverse<T>(s: seq<T>)
    ensures Reverse(Reverse(s)) == s
  {
    var r := Reverse(Reverse(s));
    assert |r| == |s|;
    forall i | 0 <= i < |s|
      ensures r[i] == s[i]
    {
      assert r[i] == Reverse(s)[|s| - 1 - i];
    }
  }

  /** One more in-place reversal turns the orientation of span j-1 into
      that of span j. */
  lemma ReverseOriented<T>(ticks: seq<T>, j: nat)
    requires j >= 1
    ensures Reverse(Oriented(ticks, j - 1)) == Oriented(ticks, j)
  {
    if j % 2 == 1 {
      assert (j - 1) % 2 == 0;
      assert Oriented(ticks, j - 1) == ticks;
    } else {
      assert (j - 1) % 2 == 1;
      ReverseReverse(ticks);
    }
  }

  /** Reversing the buffer in place once per span gives, on span j, the
      forward ticks reversed exactly when j is odd. */
  lemma {:induction false} RepeatSpansByParity(pointAt: PointAt, p: SliderPath, ticks: seq<CatchObject>, j: nat)
    requires p.repeats > 0 && j >= 1
    ensures RepeatSpans(pointAt, p, Oriented(ticks, j - 1), j) == SpansFrom(pointAt, p, ticks, j)
    decreases p.repeats - j
  {
    if j < p.repeats {
      var buffer := Oriented(ticks, j - 1);
      ReverseOriented(ticks, j);
      RepeatSpansByParity(pointAt, p, ticks, j + 1);
      calc {
        RepeatSpans(pointAt, p, buffer, j);
        [ReversePoint(pointAt, p, j)] + Reverse(buffer) + RepeatSpans(pointAt, p, Reverse(buffer), j + 1);
        [ReversePoint(pointAt, p, j)] + Oriented(ticks, j) + RepeatSpans(pointAt, p, Oriented(ticks, j), j + 1);
        [ReversePoint(pointAt, p, j)] + Oriented(ticks, j) + SpansFrom(pointAt, p, ticks, j + 1);
        SpansFrom(pointAt, p, ticks, j);
      }
    }
  }

  /** Where span m (counted from 0) begins when every span is n objects long. */
  function SpanStart(m: nat, n: nat): nat
  {
    if m == 0 then 0 else SpanStart(m - 1, n) + n
  }

  lemma {:induction false} SpanStartIsProduct(m: nat, n: nat)
    ensures SpanStart(m, n) == m * n
  {
    if m > 0 {
      SpanStartIsProduct(m - 1, n);
    }
  }

  /** Blocks of equal size n: blocks j..last-1 take (last - j) * n objects. */
  lemma {:induction false} BlocksLength<T>(marker: nat -> T, body: nat -> seq<T>, j: nat, last: nat, n: nat)
    requires j <= last
    requires forall i :: j <= i < last ==> |body(i)| + 1 == n
    ensures |Blocks(marker, body, j, last)| == SpanStart(last - j, n)
    decreases last - j
  {
    if j < last {
      BlocksLength(marker, body, j + 1, last, n);
    }
  }

  /** Indexing into equal-size blocks: block j+m begins at offset m*n with
      its marker, and its body follows. */
  lemma {:induction false} BlocksIndex<T>(marker: nat -> T, body: nat -> seq<T>, j: nat, last: nat, n: nat, m: nat, k: nat)
    requires j + m < last && k + 1 < n
    requires forall i :: j <= i < last ==> |body(i)| + 1 == n
    ensures SpanStart(m, n) + 1 + k < |Blocks(marker, body, j, last)|
    ensures Blocks(marker, body, j, last)[SpanStart(m, n)] == marker(j + m)
    ensures Blocks(marker, body, j, last)[SpanStart(m, n) + 1 + k] == body(j + m)[k]
    decreases m
  {
    var s := Blocks(marker, body, j, last);
    var first := [marker(j)] + body(j);
    var rest := Blocks(marker, body, j + 1, last);
    assert s == first + rest;
    BlocksLength(marker, body, j + 1, last, n);
    if m > 0 {
      BlocksIndex(marker, body, j + 1, last, n, m - 1, k);
      var o' := SpanStart(m - 1, n);
      assert s[|first| + o'] == rest[o'];
      assert s[|first| + o' + 1 + k] == rest[o' + 1 + k];
    } else {
      assert s[1 + k] == first[1 + k];
    }
  }

  /** The slider layout span by span: head, forward ticks, then for each
      later span j its reverse point and the ticks reversed on odd j, then
      the tail; in all repeats*(ticks+1)+1 objects. */
  lemma SliderLayoutBySpan(pointAt: PointAt, p: SliderPath, head: CatchObject, ticks: seq<CatchObject>)
    requires p.repeats > 0
    ensures Layout(pointAt, p, head, ticks)
            == [head] + ticks + SpansFrom(pointAt, p, ticks, 1) + [Tail(pointAt, p)]
    ensures |Layout(pointAt, p, head, ticks)| == p.repeats * (|ticks| + 1) + 1
  {
    var n := |ticks| + 1;
    RepeatSpansByParity(pointAt, p, ticks, 1);
    var spans := SpansFrom(pointAt, p, ticks, 1);
    BlocksLength(SpanMarker(pointAt, p), SpanBody(ticks), 1, p.repeats, n);
    SpanStartIsProduct(p.repeats - 1, n);
    assert |spans| == (p.repeats - 1) * n;
    assert p.repeats * n == (p.repeats - 1) * n + n;
  }

  /** Generic form of the layout index: a prefix of n objects followed by
      equal blocks of n objects puts block j at offset SpanStart(j, n). */
  lemma PrefixedBlocksIndex<T>(out: seq<T>, prefix: seq<T>, marker: nat -> T, body: nat -> seq<T>, suffix: seq<T>,
                               last: nat, n: nat, j: nat, k: nat)
    requires out == prefix + Blocks(marker, body, 1, last) + suffix
    requires |prefix| == n && 1 <= j < last && k + 1 < n
    requires forall i :: 1 <= i < last ==> |body(i)| + 1 == n
    ensures SpanStart(j, n) + 1 + k < |out|
    ensures out[SpanStart(j, n)] == marker(j)
    ensures out[SpanStart(j, n) + 1 + k] == body(j)[k]
  {
    var blocks := Blocks(marker, body, 1, last);
    BlocksIndex(marker, body, 1, last, n, j - 1, k);
    var o := SpanStart(j - 1, n);
    assert SpanStart(j, n) == n + o;
    MiddleIndex(prefix, blocks, suffix, n + o);
    MiddleIndex(prefix, blocks, suffix, n + o + 1 + k);
  }

  /** Indexing into the middle part of a three-part concatenation. */
  lemma MiddleIndex<T>(a: seq<T>, b: seq<T>, c: seq<T>, i: nat)
    requires |a| <= i < |a| + |b|
    ensures i < |a + b + c| && (a + b + c)[i] == b[i - |a|]
  {
  }

  /** The layout begins with the head and the forward ticks and ends with
      the tail. */
  lemma SliderLayoutEnds(pointAt: PointAt, p: SliderPath, head: CatchObject, ticks: seq<CatchObject>)
    requires p.repeats > 0
    ensures Layout(pointAt, p, head, ticks)[0] == head
    ensures Layout(pointAt, p, head, ticks)[1..1 + |ticks|] == ticks
    ensures Layout(pointAt, p, head, ticks)[|Layout(pointAt, p, head, ticks)| - 1] == Tail(pointAt, p)
  {
    var out := Layout(pointAt, p, head, ticks);
    var rest := RepeatSpans(pointAt, p, ticks, 1) + [Tail(pointAt, p)];
    assert out == [head] + ticks + rest;
    assert out[1..1 + |ticks|] == ticks;
  }

  /** Tick k of span j: the forward tick k, or its mirror on odd spans. */
  lemma OrientedIndex<T>(ticks: seq<T>, j: nat, k: nat)
    requires k < |ticks|
    ensures |Oriented(ticks, j)| == |ticks|
    ensures Oriented(ticks, j)[k] == if j % 2 == 1 then ticks[|ticks| - 1 - k] else ticks[k]
  {
    if j % 2 == 1 {
      assert Oriented(ticks, j) == Reverse(ticks);
    } else {
      assert Oriented(ticks, j) == ticks;
    }
  }

  /** The layout as a prefix of |ticks|+1 objects, equal blocks of
      |ticks|+1 objects and the tail. */
  lemma SliderLayoutBlocks(pointAt: PointAt, p: SliderPath, head: CatchObject, ticks: seq<CatchObject>)
    requires p.repeats > 0
    ensures Layout(pointAt, p, head, ticks)
            == ([head] + ticks) + Blocks(SpanMarker(pointAt, p), SpanBody(ticks), 1, p.repeats) + [Tail(pointAt, p)]
    ensures forall i :: 1 <= i < p.repeats ==> |SpanBody(ticks)(i)| + 1 == |ticks| + 1
  {
    SliderLayoutBySpan(pointAt, p, head, ticks);
    SpanBodiesHaveTicks(ticks, p.repeats);
  }

  /** Span j of the layout as the generic block index sees it. */
  lemma SliderLayoutBlockIndex(pointAt: PointAt, p: SliderPath, head: CatchObject, ticks: seq<CatchObject>, j: nat, k: nat)
    requires p.repeats > 0 && 1 <= j < p.repeats && k < |ticks|
    ensures SpanStart(j, |ticks| + 1) + 1 + k < |Layout(pointAt, p, head, ticks)|
    ensures Layout(pointAt, p, head, ticks)[SpanStart(j, |ticks| + 1)] == SpanMarker(pointAt, p)(j)
    ensures Layout(pointAt, p, head, ticks)[SpanStart(j, |ticks| + 1) + 1 + k] == SpanBody(ticks)(j)[k]
  {
    SliderLayoutBlocks(pointAt, p, head, ticks);
    PrefixedBlocksIndex(Layout(pointAt, p, head, ticks), [head] + ticks, SpanMarker(pointAt, p), SpanBody(ticks),
                        [Tail(pointAt, p)], p.repeats, |ticks| + 1, j, k);
  }

  /** Where span j sits in the layout (1 <= j < repeats): its reverse point
      at index SpanStart(j, ticks+1) = j*(ticks+1), and its k-th tick right
      after, taken from the forward ticks, reversed when j is odd. */
  lemma SliderLayoutSpan(pointAt: PointAt, p: SliderPath, head: CatchObject, ticks: seq<CatchObject>, j: nat, k: nat)
    requires p.repeats > 0 && 1 <= j < p.repeats && k < |ticks|
    ensures SpanStart(j, |ticks| + 1) == j * (|ticks| + 1)
    ensures SpanStart(j, |ticks| + 1) + 1 + k < |Layout(pointAt, p, head, ticks)|
    ensures Layout(pointAt, p, head, ticks)[SpanStart(j, |ticks| + 1)] == ReversePoint(pointAt, p, j)
    ensures Layout(pointAt, p, head, ticks)[SpanStart(j, |ticks| + 1) + 1 + k]
            == if j % 2 == 1 then ticks[|ticks| - 1 - k] else ticks[k]
  {
    SpanStartIsProduct(j, |ticks| + 1);
    SliderLayoutBlockIndex(pointAt, p, head, ticks, j, k);
    assert SpanMarker(pointAt, p)(j) == ReversePoint(pointAt, p, j);
    assert SpanBody(ticks)(j) == Oriented(ticks, j);
    OrientedIndex(ticks, j, k);
  }

  /** Every span carries all the ticks, reversed or not. */
  lemma SpanBodiesHaveTicks(ticks: seq<CatchObject>, last: nat)
    ensures forall i :: 1 <= i < last ==> |SpanBody(ticks)(i)| + 1 == |ticks| + 1
  {
    forall i | 1 <= i < last
      ensures |SpanBody(ticks)(i)| + 1 == |ticks| + 1
    {
      assert SpanBody(ticks)(i) == Oriented(ticks, i);
    }
  }

  /** The shape of a laid-out slider with n forward ticks: the head, the
      forward ticks, then for each span j in 1..repeats-1 its reverse point
      at offset SpanStart(j, n+1) = j*(n+1) followed by the ticks oriented
      for that span, and last the tail. */
  ghost predicate SliderShape(pointAt: PointAt, p: SliderPath, head: CatchObject, ticks: seq<CatchObject>,
                              objects: seq<CatchObject>)
    requires p.repeats > 0
  {
    |objects| == p.repeats * (|ticks| + 1) + 1 &&
    objects[0] == head &&
    objects[1..1 + |ticks|] == ticks &&
    (forall j :: 1 <= j < p.repeats ==> SpanOffset(ticks, j) + |ticks| < |objects|) &&
    (forall j :: 1 <= j < p.repeats ==> objects[SpanOffset(ticks, j)] == ReversePoint(pointAt, p, j)) &&
    (forall j, k :: 1 <= j < p.repeats && 0 <= k < |ticks| ==>
       objects[SpanOffset(ticks, j) + 1 + k] == Oriented(ticks, j)[k]) &&
    objects[|objects| - 1] == Tail(pointAt, p)
  }

  /** Where span j starts in a layout with these forward ticks. */
  function SpanOffset<T>(ticks: seq<T>, j: nat): nat
  {
    SpanStart(j, |ticks| + 1)
  }

  /** Span j's block ends before the tail. */
  lemma SpanStartBound(j: nat, n: nat, repeats: nat)
    requires 1 <= j < repeats
    ensures SpanStart(j, n + 1) + n < repeats * (n + 1) + 1
  {
    SpanStartIsProduct(j, n + 1);
    assert j * (n + 1) <= (repeats - 1) * (n + 1) by {
      MulMonotone(j, repeats - 1, n + 1);
    }
    assert (repeats - 1) * (n + 1) + (n + 1) == repeats * (n + 1);
  }

  lemma MulSucc(a: nat, b: nat)
    ensures a * (b + 1) == a * b + a
  {
  }

  lemma MulMonotone(a: nat, b: nat, c: nat)
    requires a <= b
    ensures a * c <= b * c
  {
  }

  /** Without ticks, the spans are just the reverse points. */
  lemma {:induction false} EmptySpansIndex(pointAt: PointAt, p: SliderPath, i: nat, m: nat)
    requires p.repeats > 0 && i + m < p.repeats
    ensures m < |RepeatSpans(pointAt, p, [], i)|
    ensures RepeatSpans(pointAt, p, [], i)[m] == ReversePoint(pointAt, p, i + m)
    decreases m
  {
    var empty: seq<CatchObject> := [];
    assert Reverse(empty) == empty;
    var rest := RepeatSpans(pointAt, p, empty, i + 1);
    assert RepeatSpans(pointAt, p, empty, i) == [ReversePoint(pointAt, p, i)] + rest;
    if m > 0 {
      EmptySpansIndex(pointAt, p, i + 1, m - 1);
    }
  }

  /** The reverse point of span j when there are no ticks. */
  lemma EmptyLayoutMarker(pointAt: PointAt, p: SliderPath, head: CatchObject, j: nat)
    requires p.repeats > 0 && 1 <= j < p.repeats
    ensures SpanStart(j, 1) == j
    ensures j < |Layout(pointAt, p, head, [])| && Layout(pointAt, p, head, [])[j] == ReversePoint(pointAt, p, j)
  {
    SpanStartIsProduct(j, 1);
    EmptySpansIndex(pointAt, p, 1, j - 1);
    var spans := RepeatSpans(pointAt, p, [], 1);
    assert Layout(pointAt, p, head, []) == [head] + spans + [Tail(pointAt, p)];
    MiddleIndex([head], spans, [Tail(pointAt, p)], j);
  }

  /** The layout has the shape of a laid-out slider. */
  lemma LayoutHasShape(pointAt: PointAt, p: SliderPath, head: CatchObject, ticks: seq<CatchObject>)
    requires p.repeats > 0
    ensures SliderShape(pointAt, p, head, ticks, Layout(pointAt, p, head, ticks))
  {
    var objects := Layout(pointAt, p, head, ticks);
    var n := |ticks|;
    SliderLayoutBySpan(pointAt, p, head, ticks);
    SliderLayoutEnds(pointAt, p, head, ticks);
    forall j | 1 <= j < p.repeats
      ensures SpanOffset(ticks, j) + n < |objects|
      ensures objects[SpanOffset(ticks, j)] == ReversePoint(pointAt, p, j)
    {
      SpanStartBound(j, n, p.repeats);
      if n > 0 {
        SliderLayoutSpan(pointAt, p, head, ticks, j, 0);
      } else {
        EmptyLayoutMarker(pointAt, p, head, j);
      }
    }
    forall j, k | 1 <= j < p.repeats && 0 <= k < n
      ensures SpanOffset(ticks, j) + 1 + k < |objects|
      ensures objects[SpanOffset(ticks, j) + 1 + k] == Oriented(ticks, j)[k]
    {
      SliderLayoutSpan(pointAt, p, head, ticks, j, k);
      OrientedIndex(ticks, j, k);
    }
  }

  /** The map-wide numbers slider expansion divides by: a positive slider
      velocity and tick rate, and non-zero speed multipliers. */
  predicate ValidNumerics(sv: real, tickRate: real, diffPts: seq<ControlPoint>)
  {
    sv > 0.0 && tickRate > 0.0 && forall j :: 0 <= j < |diffPts| ==> diffPts[j].value != 0.0
  }

  /** Timing of one slider, from the control points in force at its start. */
  datatype SliderTiming = SliderTiming(beatLen: real, timingTime: real, speedMultiplier: real,
                                       diffTime: real, tickDistance: real, duration: real)

  /** The timing of a slider starting at `start`. */
  function Timing(start: real, pixelLen: real, repeats: nat, timingPts: seq<ControlPoint>,
                  diffPts: seq<ControlPoint>, sv: real, tickRate: real, version: int): (t: SliderTiming)
    requires ValidNumerics(sv, tickRate, diffPts)
    ensures (t.beatLen, t.timingTime) == LookupTiming(timingPts, start)
    ensures (t.speedMultiplier, t.diffTime) == LookupDifficulty(diffPts, start)
    ensures t.tickDistance == TickDistance(sv, tickRate, version, t.speedMultiplier)
    ensures t.tickDistance > 0.0
    ensures t.speedMultiplier != 0.0
    ensures sv * DurationMultiplier(t.timingTime, t.diffTime, t.speedMultiplier) != 0.0
    ensures t.duration == Duration(repeats, t.beatLen, pixelLen, sv,
                                   DurationMultiplier(t.timingTime, t.diffTime, t.speedMultiplier))
  {
    var (beatLen, timingTime) := LookupTiming(timingPts, start);
    var (sm, diffTime) := LookupDifficulty(diffPts, start);
    var td := TickDistance(sv, tickRate, version, sm);
    var spm := DurationMultiplier(timingTime, diffTime, sm);
    SliderTiming(beatLen, timingTime, sm, diffTime, td, Duration(repeats, beatLen, pixelLen, sv, spm))
  }

  /** A slider that starts before every control point runs on the defaults:
      a 1000 ms beat, speed multiplier 1 and the unscaled tick spacing. */
  lemma TimingBeforeAllPoints(start: real, pixelLen: real, repeats: nat, timingPts: seq<ControlPoint>,
                              diffPts: seq<ControlPoint>, sv: real, tickRate: real, version: int)
    requires ValidNumerics(sv, tickRate, diffPts)
    requires SortedByTime(timingPts) && SortedByTime(diffPts)
    requires forall j :: 0 <= j < |timingPts| ==> start < timingPts[j].time
    requires forall j :: 0 <= j < |diffPts| ==> start < diffPts[j].time
    ensures var t := Timing(start, pixelLen, repeats, timingPts, diffPts, sv, tickRate, version);
            t.beatLen == DefaultBeatLength && t.speedMultiplier == DefaultSpeedMultiplier &&
            t.tickDistance == 100.0 * sv / tickRate &&
            t.duration == repeats as real * DefaultBeatLength * pixelLen / sv / 100.0
  {
    var t := Timing(start, pixelLen, repeats, timingPts, diffPts, sv, tickRate, version);
    assert (t.beatLen, t.timingTime) == (DefaultBeatLength, 0.0);
    assert (t.speedMultiplier, t.diffTime) == (DefaultSpeedMultiplier, 0.0);
    assert DurationMultiplier(t.timingTime, t.diffTime, t.speedMultiplier) == 1.0;
    UnitMultiplierTiming(repeats, pixelLen, sv, tickRate, version);
  }

  /** With speed multiplier 1 the tick spacing is unscaled and the duration
      divides by the slider velocity alone. */
  lemma UnitMultiplierTiming(repeats: nat, pixelLen: real, sv: real, tickRate: real, version: int)
    requires sv > 0.0 && tickRate > 0.0
    ensures TickDistance(sv, tickRate, version, 1.0) == 100.0 * sv / tickRate
    ensures Duration(repeats, DefaultBeatLength, pixelLen, sv, 1.0)
            == repeats as real * DefaultBeatLength * pixelLen / sv / 100.0
  {
    assert sv * 1.0 == sv;
  }

  /** The catch objects of a slider and its contribution to the counts. */
  datatype SliderExpansion = SliderExpansion(objects: seq<CatchObject>, fruits: nat, droplets: nat)

  /** The distance below which ticks are laid: an eighth of a spacing short
      of the path's end. */
  function TickTarget(pixelLen: real, td: real): real
  {
    pixelLen - td / 8.0
  }

  /** The forward ticks of a slider along its curve. With a zero path
      length no tick is laid (the target is negative), so the time step,
      which would divide by zero, is never needed. */
  function ForwardTicks(pointAt: PointAt, curve: Curve, start: real, pixelLen: real, repeats: nat,
                        timing: SliderTiming): (ticks: seq<CatchObject>)
    requires repeats >= 1 && timing.tickDistance > 0.0
    ensures |ticks| == TickCount(timing.tickDistance, TickTarget(pixelLen, timing.tickDistance))
    ensures pixelLen == 0.0 ==> ticks == []
    ensures pixelLen != 0.0 ==>
              forall k :: 0 <= k < |ticks| ==>
                ticks[k] == Tick(pointAt, curve, start, timing.tickDistance,
                                 TimeAdd(timing.duration, timing.tickDistance, pixelLen, repeats), k + 1)
  {
    var td := timing.tickDistance;
    if pixelLen == 0.0 then []
    else Ticks(pointAt, curve, start, td, TickTarget(pixelLen, td), TimeAdd(timing.duration, td, pixelLen, repeats))
  }

  /** Laying a slider out along an already built curve. */
  function ExpandAlong(pointAt: PointAt, pos: Pos2, start: real, pixelLen: real, repeats: nat,
                       curve: Curve, timing: SliderTiming): (e: SliderExpansion)
    requires repeats >= 1 && timing.tickDistance > 0.0
    ensures e.fruits == 1 + repeats
    ensures e.droplets == repeats * TickCount(timing.tickDistance, TickTarget(pixelLen, timing.tickDistance))
    ensures |e.objects| == e.fruits + e.droplets
    ensures e.objects[0] == NewCatchObject(pos, start)
    ensures e.objects[|e.objects| - 1].time == start + timing.duration
    ensures SliderShape(pointAt, SliderPath(start, pixelLen, repeats, timing.duration, curve), NewCatchObject(pos, start),
                        ForwardTicks(pointAt, curve, start, pixelLen, repeats, timing), e.objects)
  {
    var ticks := ForwardTicks(pointAt, curve, start, pixelLen, repeats, timing);
    var path := SliderPath(start, pixelLen, repeats, timing.duration, curve);
    var head := NewCatchObject(pos, start);
    var objects := Layout(pointAt, path, head, ticks);
    MulSucc(repeats, |ticks|);
    LayoutHasShape(pointAt, path, head, ticks);
    SliderExpansion(objects, 1 + repeats, |objects| - 1 - repeats)
  }

  /** Expanding one slider: build its curve (a linear path with fewer than
      two control points is an out-of-bounds index, `None`), lay its ticks
      and its spans, and count 1 + repeats fruits and the rest droplets. */
  function ExpandSlider(pointAt: PointAt, pos: Pos2, start: real, pixelLen: real, repeats: nat,
                        cps: seq<Pos2>, pathType: PathType, timing: SliderTiming): (r: Option<SliderExpansion>)
    requires repeats >= 1 && timing.tickDistance > 0.0
    ensures r.None? <==> pathType == Linear && |cps| < 2
    ensures r.Some? ==> r.value.fruits == 1 + repeats
    ensures r.Some? ==> r.value.droplets
                        == repeats * TickCount(timing.tickDistance, TickTarget(pixelLen, timing.tickDistance))
    ensures r.Some? ==> |r.value.objects| == r.value.fruits + r.value.droplets
    ensures r.Some? ==> r.value.objects[0] == NewCatchObject(pos, start)
    ensures r.Some? ==> r.value.objects[|r.value.objects| - 1].time == start + timing.duration
    ensures r.Some? ==>
              var curve := BuildCurve(NormalizePathType(pathType, |cps|), cps);
              curve.Some? &&
              SliderShape(pointAt, SliderPath(start, pixelLen, repeats, timing.duration, curve.value),
                          NewCatchObject(pos, start),
                          ForwardTicks(pointAt, curve.value, start, pixelLen, repeats, timing), r.value.objects)
  {
    match BuildCurve(NormalizePathType(pathType, |cps|), cps)
    case None => None
    case Some(curve) => Some(ExpandAlong(pointAt, pos, start, pixelLen, repeats, curve, timing))
  }

  /** The forward ticks all fall inside the first span: before
      start + duration/repeats, the time of the first reverse point. */
  lemma ForwardTicksWithinFirstSpan(pointAt: PointAt, curve: Curve, start: real, pixelLen: real, repeats: nat,
                                    timing: SliderTiming)
    requires repeats >= 1 && timing.tickDistance > 0.0 && timing.duration > 0.0
    ensures var ticks := ForwardTicks(pointAt, curve, start, pixelLen, repeats, timing);
            forall k :: 0 <= k < |ticks| ==> ticks[k].time < start + timing.duration / repeats as real
  {
    var td := timing.tickDistance;
    var ticks := ForwardTicks(pointAt, curve, start, pixelLen, repeats, timing);
    var n := |ticks|;
    if n > 0 {
      assert Multiple(1, td) < TickTarget(pixelLen, td);
      assert pixelLen > 0.0;
      assert Multiple(n, td) < pixelLen;
      var ta := TimeAdd(timing.duration, td, pixelLen, repeats);
      forall k | 0 <= k < n
        ensures ticks[k].time < start + timing.duration / repeats as real
      {
        assert ticks[k].time == start + ta * (k + 1) as real;
        EachStepWithinShare(timing.duration, td, pixelLen, repeats as real, n, k + 1);
      }
    }
  }

  /** In a layout with two or more spans whose ticks all precede the first
      reverse point, the forward ticks come before that point and the first
      tick of the second span comes after it in the list yet before it in
      time. */
  lemma LayoutRunsBackAfterFirstReverse(pointAt: PointAt, p: SliderPath, head: CatchObject, ticks: seq<CatchObject>)
    requires p.repeats >= 2 && |ticks| >= 1
    requires forall k :: 0 <= k < |ticks| ==> ticks[k].time < p.start + p.duration / p.repeats as real
    ensures var out := Layout(pointAt, p, head, ticks);
            var n := |ticks|;
            n + 2 < |out| &&
            out[n + 1].time == p.start + p.duration / p.repeats as real &&
            (forall k :: 1 <= k <= n ==> out[k].time < out[n + 1].time) &&
            out[n + 2].time < out[n + 1].time
  {
    var out := Layout(pointAt, p, head, ticks);
    var n := |ticks|;
    SliderLayoutSpan(pointAt, p, head, ticks, 1, 0);
    SliderLayoutEnds(pointAt, p, head, ticks);
    assert SpanStart(1, n + 1) == n + 1;
    assert out[n + 1] == ReversePoint(pointAt, p, 1);
    assert out[n + 1].time == p.start + p.duration / p.repeats as real * 1 as real;
    forall k | 1 <= k <= n
      ensures out[k].time < out[n + 1].time
    {
      assert out[k] == out[1..1 + n][k - 1] == ticks[k - 1];
    }
    assert out[n + 2] == ticks[n - 1];
  }

  /** The ticks of the second span reuse the forward tick times in reverse,
      so the object right after the first reverse point is earlier than it:
      a slider with repeats and ticks emits its objects out of time order. */
  lemma RepeatTicksRunBackInTime(pointAt: PointAt, pos: Pos2, start: real, pixelLen: real, repeats: nat,
                                 cps: seq<Pos2>, pathType: PathType, timing: SliderTiming)
    requires repeats >= 2 && timing.tickDistance > 0.0 && timing.duration > 0.0
    requires !(pathType == Linear && |cps| < 2)
    requires TickCount(timing.tickDistance, TickTarget(pixelLen, timing.tickDistance)) >= 1
    ensures var out := ExpandSlider(pointAt, pos, start, pixelLen, repeats, cps, pathType, timing).value.objects;
            var n := TickCount(timing.tickDistance, TickTarget(pixelLen, timing.tickDistance));
            n + 2 < |out| &&
            out[n + 1].time == start + timing.duration / repeats as real &&
            (forall k :: 1 <= k <= n ==> out[k].time < out[n + 1].time) &&
            out[n + 2].time < out[n + 1].time
  {
    var curve := BuildCurve(NormalizePathType(pathType, |cps|), cps).value;
    var ticks := ForwardTicks(pointAt, curve, start, pixelLen, repeats, timing);
    var path := SliderPath(start, pixelLen, repeats, timing.duration, curve);
    var head := NewCatchObject(pos, start);
    assert ExpandSlider(pointAt, pos, start, pixelLen, repeats, cps, pathType, timing)
           == Some(ExpandAlong(pointAt, pos, start, pixelLen, repeats, curve, timing));
    assert ExpandAlong(pointAt, pos, start, pixelLen, repeats, curve, timing).objects == Layout(pointAt, path, head, ticks);
    ForwardTicksWithinFirstSpan(pointAt, curve, start, pixelLen, repeats, timing);
    LayoutRunsBackAfterFirstReverse(pointAt, path, head, ticks);
  }
}

=== FILE: stars.dfy ===
/** `stars`: the star rating of a catch map. A map with fewer than two hit
    objects rates as all zeros; otherwise the catch-object stream is built,
    annotated for hyperdashes, walked pair by pair through the sectioned
    strain skill, and the counts of the stream are reported. The map's
    mod-adjusted attributes and the collaborators whose code is not part of
    this model are inputs. */
module Stars {
  import opened Wrappers
  import opened RealMath
  import opened Geometry
  import opened CatchObjects
  import opened Stream
  import opened Walk

  const SectionLength: real := 750.0
  const AllowedCatchRange: real := 0.8
  const CatcherSize: real := 106.75

  /** The circle size at which the catcher shrinks to nothing. */
  const VanishingCircleSize: real := 85.0 / 7.0

  function Abs(x: real): real
  {
    if x < 0.0 then -x else x
  }

  /** The scale of the catcher at circle size `cs`: 1 at cs 5, falling by
      0.14 per unit of circle size. */
  function CatcherScale(cs: real): real
  {
    1.0 - 0.7 * (cs - 5.0) / 5.0
  }

  /** `calculate_catch_width`: the catcher's width scaled by circle size and
      the allowed catch range. The absolute value makes it grow again past
      the vanishing circle size. */
  function CatchWidth(cs: real): (w: real)
    ensures w >= 0.0
    ensures w == 0.0 <==> cs == VanishingCircleSize
    ensures cs == 5.0 ==> w == CatcherSize * AllowedCatchRange
  {
    CatcherSize * Abs(CatcherScale(cs)) * AllowedCatchRange
  }

  /** A higher circle size never widens the catcher, up to the vanishing
      circle size. */
  lemma CatchWidthShrinks(cs1: real, cs2: real)
    requires cs1 <= cs2 <= VanishingCircleSize
    ensures CatchWidth(cs2) <= CatchWidth(cs1)
  {
  }

  /** The half catcher width used by the hyperdash pass: the allowed catch
      range cancels out, leaving half the scaled catcher. */
  function HalfCatcherWidth(cs: real): (h: real)
    ensures h == CatcherSize * Abs(CatcherScale(cs)) / 2.0
    ensures h >= 0.0
  {
    CatchWidth(cs) / 2.0 / AllowedCatchRange
  }

  /** The end of the first section: the first hit object's start time
      rounded up to a whole number of sections. */
  function InitialSectionEnd(firstStart: real, len: real): (e: real)
    requires len > 0.0
    ensures firstStart <= e < firstStart + len
    ensures (e / len).Floor as real == e / len
  {
    var c := Ceil(firstStart / len);
    assert firstStart / len * len == firstStart;
    MulLeft(firstStart / len, c as real, len);
    MulLeftStrict((c - 1) as real, firstStart / len, len);
    assert Multiple(c, len) / len == c as real;
    Multiple(c, len)
  }

  /** `map.attributes().mods(mods)` and `mods.hr()`: the mod-adjusted circle
      size and clock rate, and whether hard rock is on. */
  datatype Attributes = Attributes(cs: real, clockRate: real, withHr: bool)

  /** The code whose source is not part of this model: curve geometry, the
      hard-rock and hyperdash rules, and the rating read off the movement
      skill (`difficulty_value().sqrt() * STAR_SCALING_FACTOR`). */
  datatype Collaborators = Collaborators(pointAt: PointAt, withHrRule: HardRockRule,
                                         hyperDash: HyperDashRule, rating: Movement -> real)

  datatype DifficultyAttributes = DifficultyAttributes(stars: real, maxCombo: nat, nFruits: nat, nDroplets: nat)

  /** `DifficultyAttributes::default()`. */
  const NoAttributes := DifficultyAttributes(0.0, 0, 0, 0)

  /** The stream after the hyperdash pass, which starts with no direction
      and an excess of one half catcher width. */
  function Classified(co: Collaborators, attrs: Attributes, s: seq<CatchObject>): (c: seq<CatchObject>)
    requires |s| >= 1
    ensures |c| == |s|
    ensures forall i :: 0 <= i < |c| ==> c[i].pos == s[i].pos && c[i].time == s[i].time
    ensures c[|c| - 1] == s[|s| - 1]
    ensures var hcw := HalfCatcherWidth(attrs.cs);
            forall i {:trigger c[i]} :: 0 <= i < |c| - 1 ==>
              c[i].dash == co.hyperDash(s[i], s[i + 1], hcw, StateAt(co.hyperDash, hcw, s, 0, HyperDashState(0, hcw), i)).0
  {
    var hcw := HalfCatcherWidth(attrs.cs);
    ClassifyFrom(co.hyperDash, hcw, s, 0, HyperDashState(0, hcw))
  }

  function SectionLen(attrs: Attributes): (len: real)
    requires attrs.clockRate > 0.0
    ensures len > 0.0
  {
    SectionLength * attrs.clockRate
  }

  /** The calls the strain pass makes on the movement skill for stream `s`
      of map `m`: the walk from the first section end, then a final
      `save_current_peak`. */
  function MovementLog(co: Collaborators, attrs: Attributes, m: Beatmap, s: seq<CatchObject>): seq<MovementCall>
    requires attrs.clockRate > 0.0 && |m.hitObjects| >= 1 && |s| >= 2
  {
    var len := SectionLen(attrs);
    var end := InitialSectionEnd(m.hitObjects[0].startTime, len);
    var c := Classified(co, attrs, s);
    WalkFrom(c, 1, end, len, attrs.clockRate) + [SaveCurrentPeak]
  }

  /** `stars(map, mods)`. A panic is `Err`: a faulty slider (the first one
      in map order, since the stream is built lazily ahead of the walk) or a
      stream too short to take two objects from. */
  method Stars(co: Collaborators, m: Beatmap, attrs: Attributes) returns (r: Result<DifficultyAttributes, Panic>)
    requires WellFormed(m) && attrs.clockRate > 0.0
    ensures |m.hitObjects| < 2 ==> r == Ok(NoAttributes)
    ensures |m.hitObjects| >= 2 ==>
              var e := ExpandMap(co.pointAt, co.withHrRule, attrs.withHr, m);
              (e.Err? ==> r == Err(e.error)) &&
              (e.Ok? && |e.value.objects| < 2 ==> r == Err(TooFewCatchObjects)) &&
              (e.Ok? && |e.value.objects| >= 2 ==>
                 r.Ok? &&
                 r.value.nFruits == FruitTotal(m.hitObjects, 0) &&
                 r.value.nDroplets == DropletTotal(m, 0) &&
                 r.value.maxCombo == r.value.nFruits + r.value.nDroplets == |e.value.objects| &&
                 r.value.stars == co.rating(Movement(attrs.cs, MovementLog(co, attrs, m, e.value.objects))))
  {
    if |m.hitObjects| < 2 {
      return Ok(NoAttributes);
    }
    var e := ExpandMap(co.pointAt, co.withHrRule, attrs.withHr, m);
    if e.Err? {
      return Err(e.error);
    }
    var s := e.value.objects;
    if |s| < 2 {
      return Err(TooFewCatchObjects);
    }
    var c := Classified(co, attrs, s);
    var len := SectionLen(attrs);
    var calls, _ := WalkStream(c, InitialSectionEnd(m.hitObjects[0].startTime, len), len, attrs.clockRate);
    var movement := Movement(attrs.cs, calls);
    var fruits := e.value.fruits;
    var droplets := e.value.droplets;
    r := Ok(DifficultyAttributes(co.rating(movement), fruits + droplets, fruits, droplets));
  }

  /** The movement log of a map's walk: each catch object after the first
      is processed once, with its predecessor, in stream order; each is
      processed inside a started section; and the log ends by saving the
      last peak. */
  lemma MovementLogWalksPairs(co: Collaborators, attrs: Attributes, m: Beatmap, s: seq<CatchObject>)
    requires attrs.clockRate > 0.0 && |m.hitObjects| >= 1 && |s| >= 2
    ensures var log := MovementLog(co, attrs, m, s);
            var c := Classified(co, attrs, s);
            Processed(log) == Pairs(c, 1, attrs.clockRate) &&
            SectionsCover(log, InitialSectionEnd(m.hitObjects[0].startTime, SectionLen(attrs)), SectionLen(attrs)) &&
            log[|log| - 1] == SaveCurrentPeak
  {
    var len := SectionLen(attrs);
    WalkLog(Classified(co, attrs, s), InitialSectionEnd(m.hitObjects[0].startTime, len), len, attrs.clockRate);
  }

  /** Two spinners pass the guard on the number of hit objects but yield no
      catch object, so taking the first two objects of the stream panics. */
  method TwoSpinnersPanic(co: Collaborators, attrs: Attributes, sv: real, tickRate: real, version: int)
    returns (r: Result<DifficultyAttributes, Panic>)
    requires sv > 0.0 && tickRate > 0.0 && attrs.clockRate > 0.0
    ensures r == Err(TooFewCatchObjects)
  {
    var m := Beatmap([HitObject(Pos2(0.0, 0.0), 0.0, Spinner), HitObject(Pos2(0.0, 0.0), 1000.0, Spinner)],
                     [], [], sv, tickRate, version);
    SpinnersStreamNothing(co.pointAt, co.withHrRule, attrs.withHr, m);
    r := Stars(co, m, attrs);
  }
}

=== FILE: stream.dfy ===
/** The catch-object stream of `stars`: every hit object is expanded in map
    order (a circle into one fruit, a slider into its laid out objects, a
    spinner or hold into nothing), the hard-rock state is threaded through,
    and the fruit and droplet counters accumulate. Panics while expanding
    are `Err` values naming the offending hit object. */
module Stream {
  import opened Wrappers
  import opened Geometry
  import opened CatchObjects
  import opened ControlPoints
  import opened Sliders
  import opened FruitOrJuiceIter

  datatype HitObjectKind =
    | Circle
    | Slider(pixelLen: real, repeats: nat, curvePoints: seq<Pos2>, pathType: PathType)
    | Spinner
    | Hold

  datatype HitObject = HitObject(pos: Pos2, startTime: real, kind: HitObjectKind)

  /** The parts of a parsed beatmap the expansion reads. */
  datatype Beatmap = Beatmap(hitObjects: seq<HitObject>, timingPoints: seq<ControlPoint>,
                             difficultyPoints: seq<ControlPoint>, sv: real, tickRate: real, version: int)

  /** Why the computation panics. */
  datatype Panic =
    | EmptyCurvePoints(index: nat)      // `curve_points[len - 1]` on an empty list
    | MissingSecondPoint(index: nat)    // `curve_points[1]` for a linear path with one point
    | TooFewCatchObjects                // `hit_objects.next().unwrap()` on a short stream

  /** The map-wide numbers are in the domain the expansion is defined on,
      and every slider has at least one span. */
  predicate WellFormed(m: Beatmap)
  {
    ValidNumerics(m.sv, m.tickRate, m.difficultyPoints) &&
    forall j :: 0 <= j < |m.hitObjects| ==> (m.hitObjects[j].kind.Slider? ==> m.hitObjects[j].kind.repeats >= 1)
  }

  /** The panic expanding `h` raises, if any. */
  function Fault(h: HitObject, index: nat): (r: Option<Panic>)
    ensures r.Some? ==> h.kind.Slider?
    ensures r.Some? <==> h.kind.Slider? && (h.kind.curvePoints == [] || (h.kind.pathType == Linear && |h.kind.curvePoints| < 2))
  {
    match h.kind
    case Slider(_, _, cps, pathType) =>
      if cps == [] then Some(EmptyCurvePoints(index))
      else if pathType == Linear && |cps| < 2 then Some(MissingSecondPoint(index))
      else None
    case _ => None
  }

  /** The timing of a slider hit object. */
  function SliderTimingOf(m: Beatmap, h: HitObject): (t: SliderTiming)
    requires ValidNumerics(m.sv, m.tickRate, m.difficultyPoints) && h.kind.Slider?
    ensures t.tickDistance > 0.0
  {
    Timing(h.startTime, h.kind.pixelLen, h.kind.repeats, m.timingPoints, m.difficultyPoints,
           m.sv, m.tickRate, m.version)
  }

  /** Reference counts: the fruits a hit object contributes. */
  function FruitsOf(h: HitObject): nat
  {
    match h.kind
    case Circle => 1
    case Slider(_, repeats, _, _) => 1 + repeats
    case _ => 0
  }

  /** Reference counts: the droplets a hit object contributes, one per tick
      per span. */
  function DropletsOf(m: Beatmap, h: HitObject): nat
    requires ValidNumerics(m.sv, m.tickRate, m.difficultyPoints)
  {
    match h.kind
    case Slider(pixelLen, repeats, _, _) =>
      var td := SliderTimingOf(m, h).tickDistance;
      repeats * TickCount(td, TickTarget(pixelLen, td))
    case _ => 0
  }

  /** One step of the scan: the iterator item for `h` (if any), the new
      hard-rock state and the counts it adds. */
  datatype ScanStep = ScanStep(item: Option<FruitOrJuice>, hr: HardRockState, fruits: nat, droplets: nat)

  /** The hard-rock state after a slider: the horizontal position its
      curve ends at (its head shifted by the curve's horizontal extent) and
      its start time. */
  function SliderEndState(h: HitObject): HardRockState
    requires h.kind.Slider? && h.kind.curvePoints != []
  {
    var cps := h.kind.curvePoints;
    HardRockState(Some(h.pos.x + cps[|cps| - 1].x - cps[0].x), h.startTime)
  }

  /** The scan closure on a slider: the hard-rock state moves to the
      slider's end, then the slider is timed and laid out. */
  function ExpandSliderObject(pointAt: PointAt, m: Beatmap, h: HitObject, index: nat): (r: Result<ScanStep, Panic>)
    requires ValidNumerics(m.sv, m.tickRate, m.difficultyPoints)
    requires h.kind.Slider? && h.kind.repeats >= 1
    ensures r.Err? <==> Fault(h, index).Some?
    ensures r.Err? ==> r.error == Fault(h, index).value
    ensures r.Ok? ==> r.value.fruits == FruitsOf(h) && r.value.droplets == DropletsOf(m, h)
    ensures r.Ok? ==> r.value.item.Some? && |Remaining(r.value.item.value)| == FruitsOf(h) + DropletsOf(m, h)
    ensures r.Ok? ==> h.kind.curvePoints != [] && r.value.hr == SliderEndState(h)
  {
    var cps := h.kind.curvePoints;
    if cps == [] then Err(EmptyCurvePoints(index))
    else
      var hr' := SliderEndState(h);
      var e := ExpandSlider(pointAt, h.pos, h.startTime, h.kind.pixelLen, h.kind.repeats, cps, h.kind.pathType,
                            SliderTimingOf(m, h));
      if e.None? then Err(MissingSecondPoint(index))
      else Ok(ScanStep(Some(Juice(e.value.objects)), hr', e.value.fruits, e.value.droplets))
  }

  /** The scan closure on a circle: one fruit, repositioned by the
      hard-rock rule when hard rock is on. */
  function ExpandCircle(withHrRule: HardRockRule, withHr: bool, h: HitObject, hr: HardRockState): (r: ScanStep)
    ensures r.fruits == 1 && r.droplets == 0
    ensures r.item.Some? && r.item.value.Fruit? && r.item.value.fruit.Some?
    ensures !withHr ==> r.item == Some(Fruit(Some(NewCatchObject(h.pos, h.startTime)))) && r.hr == hr
    ensures withHr ==> (r.item.value.fruit.value, r.hr) == withHrRule(NewCatchObject(h.pos, h.startTime), hr)
  {
    var o := NewCatchObject(h.pos, h.startTime);
    var (o', hr') := if withHr then withHrRule(o, hr) else (o, hr);
    ScanStep(Some(Fruit(Some(o'))), hr', 1, 0)
  }

  /** The scan closure applied to the hit object at `index`. */
  function ExpandObject(pointAt: PointAt, withHrRule: HardRockRule, withHr: bool, m: Beatmap,
                        h: HitObject, index: nat, hr: HardRockState): (r: Result<ScanStep, Panic>)
    requires ValidNumerics(m.sv, m.tickRate, m.difficultyPoints)
    requires h.kind.Slider? ==> h.kind.repeats >= 1
    ensures r.Err? <==> Fault(h, index).Some?
    ensures r.Err? ==> r.error == Fault(h, index).value
    ensures r.Ok? ==> r.value.fruits == FruitsOf(h) && r.value.droplets == DropletsOf(m, h)
    ensures r.Ok? ==> (r.value.item.None? <==> h.kind.Spinner? || h.kind.Hold?)
    ensures r.Ok? && r.value.item.Some? ==> |Remaining(r.value.item.value)| == FruitsOf(h) + DropletsOf(m, h)
    ensures r.Ok? && h.kind.Circle? && !withHr ==> r.value.item == Some(Fruit(Some(NewCatchObject(h.pos, h.startTime))))
    ensures r.Ok? && h.kind.Circle? && withHr ==>
              r.value.item.Some? && r.value.item.value.Fruit? && r.value.item.value.fruit.Some? &&
              (r.value.item.value.fruit.value, r.value.hr) == withHrRule(NewCatchObject(h.pos, h.startTime), hr)
    ensures r.Ok? && h.kind.Slider? ==> h.kind.curvePoints != [] && r.value.hr == SliderEndState(h)
    ensures r.Ok? && !h.kind.Slider? && !(h.kind.Circle? && withHr) ==> r.value.hr == hr
  {
    if h.kind.Circle? then Ok(ExpandCircle(withHrRule, withHr, h, hr))
    else if h.kind.Slider? then ExpandSliderObject(pointAt, m, h, index)
    else Ok(ScanStep(None, hr, 0, 0))
  }

  /** The objects an optional item contributes once flattened. */
  function Flat(item: Option<FruitOrJuice>): seq<CatchObject>
  {
    match item
    case None => []
    case Some(f) => Drain(f)
  }

  /** The flattened stream with the final counter values. */
  datatype Expansion = Expansion(objects: seq<CatchObject>, fruits: nat, droplets: nat)

  /** Reference totals over the hit objects from `i` on. */
  function FruitTotal(hs: seq<HitObject>, i: nat): nat
    requires i <= |hs|
    decreases |hs| - i
  {
    if i == |hs| then 0 else FruitsOf(hs[i]) + FruitTotal(hs, i + 1)
  }

  function DropletTotal(m: Beatmap, i: nat): nat
    requires ValidNumerics(m.sv, m.tickRate, m.difficultyPoints) && i <= |m.hitObjects|
    decreases |m.hitObjects| - i
  {
    if i == |m.hitObjects| then 0 else DropletsOf(m, m.hitObjects[i]) + DropletTotal(m, i + 1)
  }

  /** Reference: the panic of the first faulty hit object from `i` on. */
  function FirstFault(hs: seq<HitObject>, i: nat): Option<Panic>
    requires i <= |hs|
    decreases |hs| - i
  {
    if i == |hs| then None
    else if Fault(hs[i], i).Some? then Fault(hs[i], i)
    else FirstFault(hs, i + 1)
  }

  /** The first fault is that of the earliest faulty hit object, and there
      is one exactly when some hit object from `i` on is faulty. */
  lemma {:induction false} FirstFaultIsEarliest(hs: seq<HitObject>, i: nat)
    requires i <= |hs|
    ensures FirstFault(hs, i).Some? <==> exists j :: i <= j < |hs| && Fault(hs[j], j).Some?
    ensures FirstFault(hs, i).Some? ==>
              exists j :: i <= j < |hs| && FirstFault(hs, i) == Fault(hs[j], j) &&
                          forall j' :: i <= j' < j ==> Fault(hs[j'], j').None?
    decreases |hs| - i
  {
    if i < |hs| && Fault(hs[i], i).None? {
      FirstFaultIsEarliest(hs, i + 1);
      if FirstFault(hs, i).Some? {
        var j :| i + 1 <= j < |hs| && FirstFault(hs, i + 1) == Fault(hs[j], j) &&
                 forall j' :: i + 1 <= j' < j ==> Fault(hs[j'], j').None?;
        assert forall j' :: i <= j' < j ==> Fault(hs[j'], j').None?;
      }
    }
  }

  /** `scan(...).filter_map(identity).flatten()` run to exhaustion from the
      hit object at `i`, or the first panic on the way. */
  function ExpandFrom(pointAt: PointAt, withHrRule: HardRockRule, withHr: bool, m: Beatmap,
                      i: nat, hr: HardRockState): (r: Result<Expansion, Panic>)
    requires WellFormed(m) && i <= |m.hitObjects|
    ensures r.Err? <==> FirstFault(m.hitObjects, i).Some?
    ensures r.Err? ==> r.error == FirstFault(m.hitObjects, i).value
    ensures r.Ok? ==> r.value.fruits == FruitTotal(m.hitObjects, i)
    ensures r.Ok? ==> r.value.droplets == DropletTotal(m, i)
    ensures r.Ok? ==> |r.value.objects| == r.value.fruits + r.value.droplets
    decreases |m.hitObjects| - i
  {
    if i == |m.hitObjects| then Ok(Expansion([], 0, 0))
    else
      var h := m.hitObjects[i];
      match ExpandObject(pointAt, withHrRule, withHr, m, h, i, hr)
      case Err(p) => Err(p)
      case Ok(step) =>
        match ExpandFrom(pointAt, withHrRule, withHr, m, i + 1, step.hr)
        case Err(p) => Err(p)
        case Ok(rest) =>
          DrainCount(step.item);
          Ok(Expansion(Flat(step.item) + rest.objects, step.fruits + rest.fruits, step.droplets + rest.droplets))
  }

  lemma DrainCount(item: Option<FruitOrJuice>)
    ensures item.Some? ==> |Flat(item)| == |Remaining(item.value)|
    ensures item.None? ==> Flat(item) == []
  {
    if item.Some? {
      DrainIsRemaining(item.value);
    }
  }

  /** The whole stream of a map. */
  function ExpandMap(pointAt: PointAt, withHrRule: HardRockRule, withHr: bool, m: Beatmap): (r: Result<Expansion, Panic>)
    requires WellFormed(m)
    ensures r.Ok? ==> |r.value.objects| == r.value.fruits + r.value.droplets
    ensures r.Ok? ==> r.value.fruits == FruitTotal(m.hitObjects, 0) && r.value.droplets == DropletTotal(m, 0)
  {
    ExpandFrom(pointAt, withHrRule, withHr, m, 0, HardRockState(None, 0.0))
  }

  /** Without hard rock, a map of circles streams one fruit per circle, at
      the circle's position and time, in map order. */
  lemma {:induction false} CirclesStreamInOrder(pointAt: PointAt, withHrRule: HardRockRule, m: Beatmap,
                                                i: nat, hr: HardRockState)
    requires WellFormed(m) && i <= |m.hitObjects|
    requires forall j :: i <= j < |m.hitObjects| ==> m.hitObjects[j].kind.Circle?
    ensures ExpandFrom(pointAt, withHrRule, false, m, i, hr).Ok?
    ensures var objects := ExpandFrom(pointAt, withHrRule, false, m, i, hr).value.objects;
            |objects| == |m.hitObjects| - i &&
            forall j :: i <= j < |m.hitObjects| ==>
              objects[j - i] == NewCatchObject(m.hitObjects[j].pos, m.hitObjects[j].startTime)
    decreases |m.hitObjects| - i
  {
    if i < |m.hitObjects| {
      var h := m.hitObjects[i];
      var o := NewCatchObject(h.pos, h.startTime);
      var step := ExpandCircle(withHrRule, false, h, hr);
      assert ExpandObject(pointAt, withHrRule, false, m, h, i, hr) == Ok(step);
      FruitYieldsOnce(o);
      assert Flat(step.item) == [o];
      CirclesStreamInOrder(pointAt, withHrRule, m, i + 1, step.hr);
      var rest := ExpandFrom(pointAt, withHrRule, false, m, i + 1, step.hr).value.objects;
      var objects := ExpandFrom(pointAt, withHrRule, false, m, i, hr).value.objects;
      assert objects == [o] + rest;
      forall j | i <= j < |m.hitObjects|
        ensures objects[j - i] == NewCatchObject(m.hitObjects[j].pos, m.hitObjects[j].startTime)
      {
        if j > i {
          assert objects[j - i] == rest[j - (i + 1)];
        }
      }
    }
  }

  /** Spinners and holds contribute nothing, so a map of two spinners
      passes the two-hit-object guard yet streams no catch object. */
  lemma SpinnersStreamNothing(pointAt: PointAt, withHrRule: HardRockRule, withHr: bool, m: Beatmap)
    requires m.hitObjects == [HitObject(Pos2(0.0, 0.0), 0.0, Spinner), HitObject(Pos2(0.0, 0.0), 1000.0, Spinner)]
    requires ValidNumerics(m.sv, m.tickRate, m.difficultyPoints)
    ensures WellFormed(m) && |m.hitObjects| >= 2
    ensures ExpandMap(pointAt, withHrRule, withHr, m) == Ok(Expansion([], 0, 0))
  {
    var hr := HardRockState(None, 0.0);
    assert ExpandFrom(pointAt, withHrRule, withHr, m, 2, hr) == Ok(Expansion([], 0, 0));
    assert ExpandFrom(pointAt, withHrRule, withHr, m, 1, hr) == Ok(Expansion([], 0, 0));
  }
}

=== FILE: walk.dfy ===
/** The pairwise walk over the catch-object stream: the hyperdash pass that
    annotates each object from its successor, and the strain pass that
    closes fixed-length sections until the current object falls inside one
    and then hands the pair to the movement skill. The skill's numerics live
    in a file that is not part of this model, so a `Movement` is the log of
    calls made on it. */
module Walk {
  import opened RealMath
  import opened CatchObjects

  /** `DifficultyObject::new(&curr, &prev, half_catcher_width, clock_rate)`;
      the half width is the movement's own, fixed by its circle size. The
      object's time is the current object's time. */
  datatype DiffObject = DiffObject(curr: CatchObject, prev: CatchObject, clockRate: real)

  datatype MovementCall =
    | SaveCurrentPeak
    | StartNewSectionFrom(sectionEnd: real)
    | Process(h: DiffObject)

  /** `Movement::new(cs)` followed by the logged calls. */
  datatype Movement = Movement(cs: real, calls: seq<MovementCall>)

  // ---------------------------------------------------------------- hyperdash

  /** The hyperdash state in force when the pair (j, j+1) is classified, the
      pass having started at object k in state `st`. */
  function StateAt(rule: HyperDashRule, hcw: real, s: seq<CatchObject>, k: nat, st: HyperDashState, j: nat): HyperDashState
    requires k <= j < |s|
    decreases j - k
  {
    if j == k then st else StateAt(rule, hcw, s, k + 1, rule(s[k], s[k + 1], hcw, st).1, j)
  }

  /** The hyperdash pass from object k on: every object but the last is
      annotated by the rule applied to it and its successor, once per
      adjacent pair and in order, with the state threaded through; the last
      object is left as it is. */
  function ClassifyFrom(rule: HyperDashRule, hcw: real, s: seq<CatchObject>, k: nat, st: HyperDashState): (c: seq<CatchObject>)
    requires k < |s|
    ensures |c| == |s| - k
    ensures forall i :: 0 <= i < |c| ==> c[i].pos == s[k + i].pos && c[i].time == s[k + i].time
    ensures c[|c| - 1] == s[|s| - 1]
    ensures forall i :: 0 <= i < |c| - 1 ==>
              c[i].dash == rule(s[k + i], s[k + i + 1], hcw, StateAt(rule, hcw, s, k, st, k + i)).0
    decreases |s| - k
  {
    if k == |s| - 1 then [s[k]]
    else
      var (d, st') := rule(s[k], s[k + 1], hcw, st);
      var rest := ClassifyFrom(rule, hcw, s, k + 1, st');
      forall j | k + 1 <= j < |s|
        ensures StateAt(rule, hcw, s, k + 1, st', j) == StateAt(rule, hcw, s, k, st, j)
      {
      }
      [s[k].(dash := d)] + rest
  }

  // ---------------------------------------------------------------- sections

  /** How many times the catch-up loop runs before an object at time `t`
      falls inside the section ending at `end`. */
  function SectionsToClose(end: real, len: real, t: real): (n: nat)
    requires len > 0.0
    ensures t <= end + Multiple(n, len)
    ensures n > 0 ==> end + Multiple(n - 1, len) < t
  {
    if t <= end then 0
    else
      var x := (t - end) / len;
      var c := Ceil(x);
      assert x * len == t - end;
      MulLeft(x, c as real, len);
      MulLeftStrict((c - 1) as real, x, len);
      c
  }

  /** Every section end passed on the way is still before `t`. */
  lemma SectionsBeforeTime(end: real, len: real, t: real, k: nat)
    requires len > 0.0 && k < SectionsToClose(end, len, t)
    ensures end + Multiple(k, len) < t
  {
    StepsMonotone(k, SectionsToClose(end, len, t) - 1, len);
  }

  /** The calls n iterations of the catch-up loop make, starting from `end`. */
  function PeakCalls(end: real, len: real, n: nat): (calls: seq<MovementCall>)
    ensures |calls| == 2 * n
    decreases n
  {
    if n == 0 then [] else [SaveCurrentPeak, StartNewSectionFrom(end)] + PeakCalls(end + len, len, n - 1)
  }

  /** Iteration i saves a peak and starts the section at end + i*len. */
  lemma {:induction false} PeakCallsShape(end: real, len: real, n: nat, i: nat)
    requires i < n
    ensures PeakCalls(end, len, n)[2 * i] == SaveCurrentPeak
    ensures PeakCalls(end, len, n)[2 * i + 1] == StartNewSectionFrom(end + Multiple(i, len))
    decreases n
  {
    if i > 0 {
      PeakCallsShape(end + len, len, n - 1, i - 1);
    }
  }

  /** The `while h.base.time > current_section_end` loop. */
  method CatchUp(end: real, len: real, t: real) returns (calls: seq<MovementCall>, newEnd: real)
    requires len > 0.0
    ensures calls == PeakCalls(end, len, SectionsToClose(end, len, t))
    ensures newEnd == end + Multiple(SectionsToClose(end, len, t), len)
    ensures t <= newEnd
  {
    var n := SectionsToClose(end, len, t);
    calls := [];
    newEnd := end;
    var k: nat := 0;
    while t > newEnd
      invariant k <= n
      invariant newEnd == end + Multiple(k, len)
      invariant calls + PeakCalls(newEnd, len, n - k) == PeakCalls(end, len, n)
      decreases n - k
    {
      calls := calls + [SaveCurrentPeak, StartNewSectionFrom(newEnd)];
      newEnd := newEnd + len;
      k := k + 1;
    }
    if k < n {
      SectionsBeforeTime(end, len, t, k);
    }
  }

  // ---------------------------------------------------------------- the walk

  /** Reference: the calls made for the pairs (k-1, k), (k, k+1), … with the
      current section ending at `end`. */
  function WalkFrom(c: seq<CatchObject>, k: nat, end: real, len: real, clockRate: real): seq<MovementCall>
    requires 1 <= k <= |c| && len > 0.0
    decreases |c| - k
  {
    if k == |c| then []
    else
      var n := SectionsToClose(end, len, c[k].time);
      PeakCalls(end, len, n) + [Process(DiffObject(c[k], c[k - 1], clockRate))]
        + WalkFrom(c, k + 1, end + Multiple(n, len), len, clockRate)
  }

  /** The loop over the stream (and the copy of its body after the loop for
      the last object), followed by the final `save_current_peak`. */
  method WalkStream(c: seq<CatchObject>, end: real, len: real, clockRate: real)
    returns (calls: seq<MovementCall>, sectionEnd: real)
    requires |c| >= 2 && len > 0.0
    ensures calls == WalkFrom(c, 1, end, len, clockRate) + [SaveCurrentPeak]
    ensures c[|c| - 1].time <= sectionEnd
  {
    calls := [];
    sectionEnd := end;
    var k := 1;
    while k < |c|
      invariant 1 <= k <= |c|
      invariant calls + WalkFrom(c, k, sectionEnd, len, clockRate) == WalkFrom(c, 1, end, len, clockRate)
      invariant k > 1 ==> c[k - 1].time <= sectionEnd
    {
      var h := DiffObject(c[k], c[k - 1], clockRate);
      var peaks, newEnd := CatchUp(sectionEnd, len, h.curr.time);
      WalkStep(calls, c, k, sectionEnd, len, clockRate);
      calls := calls + peaks + [Process(h)];
      sectionEnd := newEnd;
      k := k + 1;
    }
    calls := calls + [SaveCurrentPeak];
  }

  /** The objects handed to `process`, in call order. */
  function Processed(calls: seq<MovementCall>): seq<DiffObject>
  {
    if calls == [] then []
    else (if calls[0].Process? then [calls[0].h] else []) + Processed(calls[1..])
  }

  lemma {:induction false} ProcessedAppend(a: seq<MovementCall>, b: seq<MovementCall>)
    ensures Processed(a + b) == Processed(a) + Processed(b)
    decreases |a|
  {
    if a == [] {
      assert a + b == b;
    } else {
      assert (a + b)[0] == a[0];
      assert (a + b)[1..] == a[1..] + b;
      ProcessedAppend(a[1..], b);
    }
  }

  lemma {:induction false} ProcessedPeaks(end: real, len: real, n: nat)
    ensures Processed(PeakCalls(end, len, n)) == []
    decreases n
  {
    if n > 0 {
      ProcessedPeaks(end + len, len, n - 1);
      ProcessedAppend([SaveCurrentPeak, StartNewSectionFrom(end)], PeakCalls(end + len, len, n - 1));
    }
  }

  /** The adjacent pairs of the stream from k on, as difficulty objects. */
  function Pairs(c: seq<CatchObject>, k: nat, clockRate: real): (ps: seq<DiffObject>)
    requires 1 <= k <= |c|
    ensures |ps| == |c| - k
  {
    seq(|c| - k, i requires 0 <= i < |c| - k => DiffObject(c[k + i], c[k + i - 1], clockRate))
  }

  /** Every catch object after the first is processed exactly once, paired
      with its predecessor, in stream order. */
  lemma {:induction false} WalkProcessesEachPairOnce(c: seq<CatchObject>, k: nat, end: real, len: real, clockRate: real)
    requires 1 <= k <= |c| && len > 0.0
    ensures Processed(WalkFrom(c, k, end, len, clockRate)) == Pairs(c, k, clockRate)
    decreases |c| - k
  {
    if k < |c| {
      var n := SectionsToClose(end, len, c[k].time);
      var h := DiffObject(c[k], c[k - 1], clockRate);
      var rest := WalkFrom(c, k + 1, end + Multiple(n, len), len, clockRate);
      WalkProcessesEachPairOnce(c, k + 1, end + Multiple(n, len), len, clockRate);
      ProcessedPeaks(end, len, n);
      ProcessedAppend(PeakCalls(end, len, n), [Process(h)]);
      ProcessedAppend(PeakCalls(end, len, n) + [Process(h)], rest);
      assert Processed([Process(h)]) == [h];
      assert Pairs(c, k, clockRate) == [h] + Pairs(c, k + 1, clockRate);
    }
  }

  /** Replaying a call log against the section end it starts from: every
      new section starts at the current end and moves it on by `len`, and
      every processed object lies at or before the current end. */
  predicate SectionsCover(calls: seq<MovementCall>, end: real, len: real)
    decreases |calls|
  {
    calls == [] ||
    match calls[0]
    case SaveCurrentPeak => SectionsCover(calls[1..], end, len)
    case StartNewSectionFrom(e) => e == end && SectionsCover(calls[1..], end + len, len)
    case Process(h) => h.curr.time <= end && SectionsCover(calls[1..], end, len)
  }

  lemma CoverCons(call: MovementCall, rest: seq<MovementCall>, end: real, len: real)
    ensures call.SaveCurrentPeak? ==> (SectionsCover([call] + rest, end, len) <==> SectionsCover(rest, end, len))
    ensures call.StartNewSectionFrom? ==>
              (SectionsCover([call] + rest, end, len) <==> call.sectionEnd == end && SectionsCover(rest, end + len, len))
    ensures call.Process? ==>
              (SectionsCover([call] + rest, end, len) <==> call.h.curr.time <= end && SectionsCover(rest, end, len))
  {
    assert ([call] + rest)[0] == call;
    assert ([call] + rest)[1..] == rest;
  }

  lemma {:induction false} PeaksCover(end: real, len: real, n: nat, rest: seq<MovementCall>)
    requires SectionsCover(rest, end + Multiple(n, len), len)
    ensures SectionsCover(PeakCalls(end, len, n) + rest, end, len)
    decreases n
  {
    if n == 0 {
      assert PeakCalls(end, len, n) + rest == rest;
    } else {
      MultipleSucc(n - 1, len);
      PeaksCover(end + len, len, n - 1, rest);
      var tail := PeakCalls(end + len, len, n - 1) + rest;
      CoverCons(StartNewSectionFrom(end), tail, end, len);
      CoverCons(SaveCurrentPeak, [StartNewSectionFrom(end)] + tail, end, len);
      PeakCallsUnfold(end, len, n, rest);
    }
  }

  lemma PeakCallsUnfold(end: real, len: real, n: nat, rest: seq<MovementCall>)
    requires n > 0
    ensures PeakCalls(end, len, n) + rest
            == [SaveCurrentPeak] + ([StartNewSectionFrom(end)] + (PeakCalls(end + len, len, n - 1) + rest))
  {
  }

  /** The walk's log is consistent with its sections: each object is
      processed only once the section it falls in has been started. */
  lemma {:induction false} WalkCoversEachObject(c: seq<CatchObject>, k: nat, end: real, len: real, clockRate: real)
    requires 1 <= k <= |c| && len > 0.0
    ensures SectionsCover(WalkFrom(c, k, end, len, clockRate) + [SaveCurrentPeak], end, len)
    decreases |c| - k
  {
    if k == |c| {
      CoverCons(SaveCurrentPeak, [], end, len);
      assert [SaveCurrentPeak] + [] == [SaveCurrentPeak];
    } else {
      var n := SectionsToClose(end, len, c[k].time);
      var end' := end + Multiple(n, len);
      var h := DiffObject(c[k], c[k - 1], clockRate);
      var rest := WalkFrom(c, k + 1, end', len, clockRate) + [SaveCurrentPeak];
      WalkCoversEachObject(c, k + 1, end', len, clockRate);
      CoverCons(Process(h), rest, end', len);
      PeaksCover(end, len, n, [Process(h)] + rest);
      WalkFromUnfold(c, k, end, len, clockRate, [SaveCurrentPeak]);
    }
  }

  lemma WalkFromUnfold(c: seq<CatchObject>, k: nat, end: real, len: real, clockRate: real, tail: seq<MovementCall>)
    requires 1 <= k < |c| && len > 0.0
    ensures var n := SectionsToClose(end, len, c[k].time);
            WalkFrom(c, k, end, len, clockRate) + tail
            == PeakCalls(end, len, n) + ([Process(DiffObject(c[k], c[k - 1], clockRate))]
               + (WalkFrom(c, k + 1, end + Multiple(n, len), len, clockRate) + tail))
  {
  }

  /** One turn of the walk's loop, seen from the calls made so far. */
  lemma WalkStep(calls: seq<MovementCall>, c: seq<CatchObject>, k: nat, end: real, len: real, clockRate: real)
    requires 1 <= k < |c| && len > 0.0
    ensures var n := SectionsToClose(end, len, c[k].time);
            calls + PeakCalls(end, len, n) + [Process(DiffObject(c[k], c[k - 1], clockRate))]
              + WalkFrom(c, k + 1, end + Multiple(n, len), len, clockRate)
            == calls + WalkFrom(c, k, end, len, clockRate)
  {
    var n := SectionsToClose(end, len, c[k].time);
    var peaks, step := PeakCalls(end, len, n), [Process(DiffObject(c[k], c[k - 1], clockRate))];
    var rest := WalkFrom(c, k + 1, end + Multiple(n, len), len, clockRate);
    var whole := WalkFrom(c, k, end, len, clockRate);
    assert whole == peaks + step + rest;
    SeqAssoc3(calls, peaks, step, rest);
  }

  lemma SeqAssoc3<T>(a: seq<T>, b: seq<T>, c: seq<T>, d: seq<T>)
    ensures a + b + c + d == a + (b + c + d)
  {
  }

  /** The complete log of a walk (the pairs, then the final saved peak)
      processes each pair once in order, keeps to its sections, and ends
      by saving a peak. */
  lemma WalkLog(c: seq<CatchObject>, end: real, len: real, clockRate: real)
    requires |c| >= 1 && len > 0.0
    ensures Processed(WalkFrom(c, 1, end, len, clockRate) + [SaveCurrentPeak]) == Pairs(c, 1, clockRate)
    ensures SectionsCover(WalkFrom(c, 1, end, len, clockRate) + [SaveCurrentPeak], end, len)
  {
    WalkProcessesEachPairOnce(c, 1, end, len, clockRate);
    ProcessedAppend(WalkFrom(c, 1, end, len, clockRate), [SaveCurrentPeak]);
    assert Processed([SaveCurrentPeak]) == [];
    WalkCoversEachObject(c, 1, end, len, clockRate);
  }
}

=== FILE: wrappers.dfy ===
/** Failure-compatible wrappers shared by the model. */
module Wrappers {

  /** An optional value, as Rust's `Option`. */
  datatype Option<+T> = None | Some(value: T)

  /** A value or the reason the computation stopped (a Rust panic here). */
  datatype Result<+T, +E> = Ok(value: T) | Err(error: E)
}
